=== FILE: README.md ===
# EcoWardrobe prediction servers, modelled in Dafny

EcoWardrobe predicts the sustainability class of a garment from its category,
material, brand and price. Its two web servers wrap a scikit-learn classifier.
The deterministic logic around that classifier is modelled and proved here:

- **Brand-type buckets.** This is `_build_brand_type_buckets` in the Flask server.
  - It reads the rows of the price table and groups them by brand, in order of first appearance.
  - It takes each brand's median price and stable-sorts the brand list by median.
  - It cuts the sorted list into four contiguous quartiles of size `max(1, n // 4)`. The last quartile takes the remainder.
  - It ranks each quartile by row count (descending), then by median (ascending).
  - It maps the four brand types `fast_fashion`, `mid_range`, `sustainable` and `luxury` to quartiles 1 to 4. An empty quartile falls back to the first non-empty one at offsets +1, −1, +2, −2.
  - `choose_brand_for_type` then picks the first candidate of a brand type. It lower-cases the requested type and replaces dashes with underscores first.
- **Label encoding.** This is `normalize_label` and `encode_label`, present in both servers.
  - An exact class wins.
  - Otherwise the first class with the same normal form (lower-case, alphanumerics only) wins.
  - Otherwise the lookup fails with `Unknown <field> label: <value>`.
- **The two `/predict` handlers.** The classifier is uninterpreted and may raise. The model covers:
  - the model-absent error;
  - the order in which the price and the fields are checked, which decides which error a request gets;
  - the explicit brand taking priority over the brand type;
  - the exact feature row handed to the classifier;
  - what becomes of an exception the classifier raises: a 400 in the Flask server, an uncaught 500 in the FastAPI server.

Modules, one per file:

| file | module | what it holds |
|---|---|---|
| `wrappers.dfy` | `Wrappers` | `Option` and `Result` |
| `labels.dfy` | `Labels` | `normalize_label`, the `LabelEncoder` abstraction, `encode_label` |
| `grouping.dfy` | `Grouping` | price-table rows and grouping them by brand |
| `ordering.dfy` | `Ordering` | the brand-list entry, the two stable sorts, `statistics.median` |
| `quartiles.dfy` | `Quartiles` | the quartile partition |
| `buckets.dfy` | `BrandBuckets` | ranking, the brand-type table with its fallback, `choose_brand_for_type` |
| `classifier.dfy` | `Classifiers` | the classifier as an uninterpreted pair of functions that may raise |
| `fastapi.dfy` | `FastApiServer` | `predict` of `server.py` |
| `flask.dfy` | `FlaskServer` | the bucket table at start-up and `predict` of `server_flask.py` |

The imperative parts of `_build_brand_type_buckets` are methods with loop invariants:
- the grouping loop;
- the median loop;
- the quartile partition;
- the ranking loop;
- the brand-type loop with its fallback search.

Each method is proved equal to a specification function. The properties are proved about those functions.

## Model

| member | source | states |
|---|---|---|
| Labels.Lower | server_flask.py:137 | `s.lower()` on ASCII text: same length, and each character is lower-cased in place |
| Labels.NormalizeLabel | server_flask.py:136-137 | the normal form holds only lower-case ASCII letters and digits, and is never longer than its input |
| Labels.NormalizeFixedPoint | server.py:49-50 | a string is its own normal form exactly when it is all lower-case alphanumerics |
| Labels.NormalizeIdempotent | server.py:49-50 | normalising twice is the same as normalising once |
| Labels.NormalizeAppend | server_flask.py:136-137 | normalising distributes over concatenation |
| Labels.NormalizeCons | server_flask.py:137 | a leading character survives normalisation exactly when its lower-case form is alphanumeric |
| Labels.NormalizeEcoFriendly | server.py:56 | "Eco-Friendly " normalises to "ecofriendly" |
| Labels.Transform | server_flask.py:143 | `encoder.transform([c])[0]` is the position of class `c` in `classes_` |
| Labels.Message | server_flask.py:148 | the error text starts with "Unknown ", ends with the value, and has exactly the fixed text plus the field name and the value |
| Labels.FirstNormalMatch | server_flask.py:145-147 | finds the first class whose normal form equals the given one, or reports that none does |
| Labels.EncodeLabel | server_flask.py:140-148 | an exact class gets its own code; otherwise success exactly when some class has the value's normal form, and the code is the first such class; every code indexes `classes_`; a failure names the field and the value |
| Labels.ExactMatchWins | server.py:53-55 | with distinct classes, a value equal to class `k` gets code `k`, even when an earlier class has the same normal form |
| Labels.EncodeOwnClasses | server.py:53-55 | every class of a fitted encoder encodes to its own position |
| Labels.EncodeDependsOnNormalForm | server.py:56-59 | two values that are not classes and share a normal form encode to the same result |
| Labels.EncodeSecondClass | server.py:56-59 | a value that is not a class, matching the second class's normal form but not the first's, gets code 1 |
| Labels.EncodeEcoFriendlyExample | server.py:56-59 | "Eco-Friendly " against classes ["cotton", "ecofriendly"] resolves to code 1 |
| Labels.EncodeUnknownExample | server.py:60 | "Unobtainium" against the same classes fails with the unknown-material error |
| Grouping.BrandOrderDistinct | server_flask.py:58 | `setdefault` lists each brand once |
| Grouping.BrandListedIffPriced | server_flask.py:50-60 | a brand is listed exactly when a row with a non-empty brand id and a parseable price names it, and then it has at least one price |
| Grouping.PricesOfRows | server_flask.py:51-59 | a price occurs among a brand's prices exactly when one of its contributing rows carries it, with a blank price counted as 0 |
| Grouping.PricesOfRowsCount | server_flask.py:51-60 | a brand has exactly as many prices as it has contributing rows, one per row |
| Grouping.PriceMultiplicity | server_flask.py:51-59 | each price occurs among a brand's prices exactly as often as the brand's contributing rows carry it |
| Grouping.GroupRows | server_flask.py:46-60 | the grouping loop yields the brands in first-appearance order; each brand's prices are those of its rows, and its count equals the number of its prices, which is positive |
| Grouping.BrandOrderFirstAppearance | server_flask.py:50-58 | brands are listed in order of first appearance: a brand listed after another is only ever named by rows that come after some row naming the earlier one |
| Ordering.Insert | server_flask.py:71 | insertion adds exactly one element, as a multiset |
| Ordering.InsertSorted | server_flask.py:71 | inserting into a sorted list keeps it sorted |
| Ordering.StableSort | server_flask.py:71 | the sort is a permutation of its input |
| Ordering.StableSortSorted | server_flask.py:71 | the result is ordered by the sort key: by median, or by count descending then median |
| Ordering.StableSortOfSorted | server_flask.py:71 | an already sorted list is left as it is |
| Ordering.InsertTies | server_flask.py:83 | inserting an element keeps the relative order of the entries tied with any key |
| Ordering.StableSortKeepsTies | server_flask.py:71 | stability: entries with equal keys keep their input order |
| Ordering.Bids | server_flask.py:84 | the brand ids of a list, position by position |
| Ordering.InsertReal | server_flask.py:65 | insertion adds exactly one price, as a multiset |
| Ordering.InsertRealAscending | server_flask.py:65 | inserting into an ascending list keeps it ascending |
| Ordering.SortReals | server_flask.py:65 | sorting the prices is a permutation of them |
| Ordering.SortRealsAscending | server_flask.py:65 | the sorted prices are ascending |
| Ordering.AscendingUnique | server_flask.py:65 | two ascending lists with the same elements are equal, so the sorted order is determined |
| Ordering.MedianBetween | server_flask.py:65 | the median is no lower than some price and no higher than some price |
| Ordering.MedianIgnoresOrder | server_flask.py:65 | the median depends only on the multiset of prices |
| Ordering.MedianOfOne | server_flask.py:65 | the median of one price is that price |
| Ordering.MedianOfConstant | server_flask.py:65 | the median of equal prices is that price |
| Quartiles.QuartileSize | server_flask.py:74 | `qsize` is at least 1, and is `n // 4` once there are at least four brands |
| Quartiles.QuartileOf | server_flask.py:78 | every brand gets a quartile in 1..4 |
| Quartiles.QuartileMonotone | server_flask.py:77-79 | quartile numbers never decrease along the median-sorted list |
| Quartiles.QuartileBounds | server_flask.py:77-79 | position `i` is in quartile `q` exactly when it lies in the slice `[Lo(q), Hi(q))` |
| Quartiles.LoHiOrdered | server_flask.py:73-79 | each quartile's slice is well formed and starts where the previous one ends |
| Quartiles.LoHiMonotone | server_flask.py:73-79 | an earlier quartile ends before a later one starts |
| Quartiles.QuartilesCover | server_flask.py:73-79 | the four quartiles concatenate back to the brand list: no brand is lost or duplicated, and the sizes sum to `n` |
| Quartiles.QuartileSizes | server_flask.py:73-79 | for `n >= 4`, quartiles 1-3 hold `n // 4` brands and quartile 4 the rest; for `n < 4`, quartile `k <= n` holds exactly brand `k-1` and the others are empty |
| Quartiles.QuartilesContiguous | server_flask.py:77-79 | a brand in a lower quartile comes earlier in the sorted list |
| Quartiles.QuartilePrefixStep | server_flask.py:77-79 | one loop step appends the brand at position `i` to its own quartile and leaves the others alone |
| Quartiles.Partition | server_flask.py:73-79 | the partition loop yields a map over exactly 1..4, whose entry `q` is quartile `q` of the list |
| BrandBuckets.StatsForPriced | server_flask.py:62-66 | when every brand has prices, the brand list has one entry per brand, in order |
| BrandBuckets.BrandStatsOfRows | server_flask.py:62-66 | the "has prices" filter drops no brand: the brand list has one (brand, median, count) entry per grouped brand, in first-appearance order |
| BrandBuckets.BrandStatsIds | server_flask.py:62-66 | the brand list's ids are the grouped brands in first-appearance order |
| BrandBuckets.ListMedians | server_flask.py:62-66 | the median loop builds the brand list of the grouped brands |
| BrandBuckets.RankQuartiles | server_flask.py:81-84 | the ranking loop replaces each quartile by its brand ids, sorted by count descending then median ascending |
| BrandBuckets.RankedHeadIsBest | server_flask.py:83 | the first brand of a ranked quartile has the highest count there, and the lowest median among equal counts |
| BrandBuckets.QuartilesOrderedByMedian | server_flask.py:71-79 | every brand of a lower quartile has a median no higher than every brand of a higher quartile |
| BrandBuckets.QuartilesPartitionBrands | server_flask.py:73-84 | the four quartiles together are a permutation of the brand list |
| BrandBuckets.TargetQuartile | server_flask.py:86-91 | each brand type targets a quartile in 1..4, in the order fast fashion, mid range, sustainable, luxury |
| BrandBuckets.ParseTier | server_flask.py:116 | a string found among the table's keys is that brand type's name |
| BrandBuckets.ParseName | server_flask.py:86-91 | each brand type's name is found as that brand type |
| BrandBuckets.FallbackChoice | server_flask.py:97-101 | the fallback search is empty exactly when no offset from the current one on reaches a non-empty quartile; otherwise it takes the first offset that does |
| BrandBuckets.TierCandidatesChoice | server_flask.py:95-102 | a non-empty target quartile is kept; otherwise the first non-empty quartile among q+1, q−1, q+2, q−2 is taken, and the list is empty when there is none |
| BrandBuckets.ResolveTier | server_flask.py:95-102 | the loop with `break` computes the candidates of one brand type |
| BrandBuckets.MapTiers | server_flask.py:93-102 | the loop over the mapping fills the candidates of all four brand types |
| BrandBuckets.TierTableDomain | server_flask.py:93-102 | the table has an entry for every brand type |
| BrandBuckets.BuildBrandTypeBuckets | server_flask.py:42-104 | the whole build equals the bucket table of the rows |
| BrandBuckets.RankedUsable | server_flask.py:73-84 | a ranked quartile is non-empty exactly when there are at least four brands or the quartile's number is at most the number of brands |
| BrandBuckets.FallbackFills | server_flask.py:93-102 | with at least one brand, fast fashion, mid range and sustainable always get candidates; luxury gets none exactly when there is a single brand |
| BrandBuckets.BucketsOfDomain | server_flask.py:93-104 | a non-empty brand list gives a table with all four brand types |
| BrandBuckets.TierFill | server_flask.py:68-104 | the fill property above, stated on the brand list |
| BrandBuckets.BucketsEmpty | server_flask.py:68-69 | the table is empty exactly when no row contributes |
| BrandBuckets.BucketsKeys | server_flask.py:93-104 | once a row contributes, every brand type is a key |
| BrandBuckets.CandidatesFromQuartile | server_flask.py:95-102 | a non-empty candidate list is one of the ranked quartiles |
| BrandBuckets.CandidatesInStats | server_flask.py:81-102 | every candidate is a brand of the brand list |
| BrandBuckets.CandidatesAreKnown | server_flask.py:50-102 | every candidate is a brand named by a contributing row |
| BrandBuckets.OneQuartileFills | server_flask.py:95-102 | with only quartile 1 non-empty, the first three brand types fall back to it and luxury stays empty |
| BrandBuckets.RankedOfOne | server_flask.py:73-84 | a single brand lands alone in quartile 1 |
| BrandBuckets.SingleBrand | server_flask.py:42-104 | with exactly one brand `b`, the table maps fast fashion, mid range and sustainable to `[b]` and luxury to `[]` |
| BrandBuckets.FullTable | server_flask.py:93-102 | when all four quartiles hold brands, each brand type gets its own quartile |
| BrandBuckets.TableOfValues | server_flask.py:93-102 | a table holding every brand type equals the display of its four values |
| BrandBuckets.RankTwo | server_flask.py:83 | of two brands in a quartile, the one with more rows is ranked first |
| BrandBuckets.RankOne | server_flask.py:83-84 | a quartile with one brand ranks to that brand's id |
| BrandBuckets.FiveQuartiles | server_flask.py:73-79 | with five brands, quartiles 1-3 hold one brand each and quartile 4 holds the last two |
| BrandBuckets.RankingExample | server_flask.py:71-102 | medians 10 to 50 with counts 1, 3, 1, 1, 2 give fast fashion [a], mid range [b], sustainable [c] and luxury [e, d] |
| BrandBuckets.FourQuartiles | server_flask.py:73-79 | with four brands, each quartile holds one brand |
| BrandBuckets.FourRanked | server_flask.py:73-84 | with four brands, each ranked quartile is one brand id |
| BrandBuckets.FourBrandExample | server_flask.py:73-102 | medians 10, 20, 30, 40 with counts 5, 1, 1, 1 give fast fashion [A], mid range [B], sustainable [C] and luxury [D] |
| BrandBuckets.DashToUnderscore | server_flask.py:115 | `replace("-", "_")` changes every dash, and only dashes |
| BrandBuckets.TierKey | server_flask.py:115 | the lookup key is the type lower-cased with dashes turned into underscores, position by position |
| BrandBuckets.TierKeyIdempotent | server_flask.py:115 | normalising a key twice is the same as once |
| BrandBuckets.TierKeyOfName | server_flask.py:86-91 | every table key is its own lookup key |
| BrandBuckets.TierKeyAppend | server_flask.py:115 | key normalisation distributes over concatenation |
| BrandBuckets.TierKeyFastFashion | server_flask.py:115 | "Fast-Fashion" normalises to `fast_fashion` |
| BrandBuckets.ChooseBrandForType | server_flask.py:112-117 | a missing or empty type gives None; any brand returned is the first candidate of the brand type whose key the type normalises to |
| BrandBuckets.ChooseByKey | server_flask.py:112-117 | a type that normalises to a brand type's key gives that brand type's first candidate, or None when it is absent or has no candidates |
| BrandBuckets.ChooseFromRows | server_flask.py:42-117 | once a row contributes, a brand type gets no brand exactly when it is luxury and there is a single brand; any brand returned is named by a contributing row |
| BrandBuckets.ChooseSpelledType | server_flask.py:115-117 | "Fast-Fashion" selects the same brand as `fast_fashion` |
| Classifiers.Classify | server.py:75-76 | a run succeeds exactly when `predict` succeeds and, if the model has `predict_proba`, so does that; its prediction is `predict`'s; probabilities are present exactly when the model has `predict_proba`; `predict`'s error wins when it raises |
| FastApiServer.Encode | server.py:52-60 | an absent encoder fails with a 500 error; otherwise the field encodes exactly when `encode_label` succeeds, and fails with a 400 error naming the field and the value |
| FastApiServer.Features | server.py:69-73 | a feature row has five entries, with the price and the wear frequency last |
| FastApiServer.Predict | server.py:62-78 | an absent model gives a 500 error; a prediction means every field was encoded |
| FastApiServer.ModelCheckedFirst | server.py:66-67 | an absent model gives the same 500 error whatever the request |
| FastApiServer.CategoryReportedFirst | server.py:69 | an unknown category is reported, whatever the other fields |
| FastApiServer.MaterialReportedSecond | server.py:69-70 | with the category known, an unknown material is reported |
| FastApiServer.BrandReportedLast | server.py:69-71 | with the category and material known, an unknown brand is reported |
| FastApiServer.FeatureRowShape | server.py:69-78 | when the three fields encode, with valid codes, the classifier runs on `[item, material, brand, price, wear]`: its answer is the response, and an exception it raises is uncaught and gives a 500 |
| FastApiServer.MissingEncoderIsServerError | server.py:53 | an absent category encoder gives a 500 error |
| FastApiServer.ExactRequest | server.py:53-55 | exact class names give their positions as the feature codes |
| FlaskServer.EncodeField | server_flask.py:140-148 | every code a field encodes to is a valid index into that encoder's classes, and encoding succeeds only with an encoder present |
| FlaskServer.Predict | server_flask.py:152-189 | an absent model gives a 500 error; every other error is a 400; a prediction reports the chosen brand |
| FlaskServer.ModelCheckedFirst | server_flask.py:155-156 | an absent model gives the same 500 error whatever the request |
| FlaskServer.PriceCheckedSecond | server_flask.py:165 | an unconvertible price is reported before any label |
| FlaskServer.MissingPriceIsZero | server_flask.py:165 | a missing price answers as a price of 0 |
| FlaskServer.CategoryReportedFirst | server_flask.py:167 | an unknown category is reported, whatever the material and brand |
| FlaskServer.MaterialReportedSecond | server_flask.py:167-168 | with the category known, an unknown material is reported before the brand is chosen |
| FlaskServer.MissingEncoderIsClientError | server_flask.py:167 | an absent category encoder gives a 400 error, unlike the FastAPI server |
| FlaskServer.ExplicitBrandWins | server_flask.py:170-171 | with a non-empty brand, the brand type does not affect the response, and a prediction reports that brand |
| FlaskServer.NoBrandChosen | server_flask.py:170-175 | with no brand and no brand chosen for the type, the request fails with the `lower` error |
| FlaskServer.BrandTypeRequest | server_flask.py:109-117 | a brand-type request against the table built from the rows gets a brand named by the rows, except luxury with a single brand, which gets none |
| FlaskServer.FeatureRowShape | server_flask.py:175-189 | when the fields encode, the classifier runs on `[item, material, brand, price]`, with no wear frequency: its answer is returned with the chosen brand, and an exception it raises becomes a 400 with its text |

## Left out

- Disk I/O is a parameter, not modelled:
  - loading the model and the three encoders (`safe_load`) becomes an optional field of the server;
  - a price table that is missing becomes an absent table.
- CSV parsing is not modelled. The rows are an input sequence: an optional brand id and a price cell that is blank, a number or text `float` rejects.
- Floating point is not modelled: prices and medians are exact reals.
  - NaN and infinities are not modelled.
  - Rounding of the even-count median average is not modelled.
- The classifier's `predict` and `predict_proba` are uninterpreted functions that return an answer or raise with a message. When and why they raise is not modelled; one case is a feature row whose width differs from the one the model was fitted on. `.tolist()` is the identity.
- A fitted `LabelEncoder` is the sequence of its `classes_`. `transform` returns a class's position in it.
- Text is ASCII only, so `lower`, `isalnum` and `replace` act on ASCII characters.
- The price is the key missing (`Absent`), a value `float` accepts (`Given`, e.g. a JSON number or boolean), or a value it rejects (`Unconvertible`, JSON `null` included). The four label fields are each a string or missing (`None`). A `brand` or `brand_type` that is a falsy non-string (`false`, `0`, `[]`, `{}`) acts exactly like a missing field, through `if brand:` and `if not brand_type:`, so it is modelled as `None`. Any other non-string label value is not modelled: it would fail in `lower` with a different message.
- `request.get_json() or {}` is not modelled: the request is its fields, each possibly missing.
- FastAPI's request validation (the 422 response) is not modelled: its request holds every field with its declared type.
- Routing, CORS, templates, static files, `/health` and server start-up are not modelled.
- `train_model.py` is not modelled.
- The outer `except Exception: return {}` of the bucket build is not modelled: given rows, no step of the model can fail. A read of the price table that fails part-way raises into that handler, which leaves the whole table empty; the model does not cover that case.
- Python's in-place updates are modelled on values:
  - `brand_list.sort` becomes a new sorted sequence;
  - each quartile list replaced by its ranked brand ids becomes a new map of ids;
  - the result dict keyed by strings becomes a map keyed by the `BrandType` datatype, with the string keys given by `Name` and `ParseTier`.
- The tuples `(bid, median, count)` and `(bid, count, median)` are one `BrandStat` record.
- Python's Timsort is modelled as a stable insertion sort. A stable sort by a given key has only one possible result, so the two agree.

=== FILE: buckets.dfy ===
/**
 * The brand-type bucket table of the Flask server: every known brand is placed
 * in a price quartile by its median price, each quartile is ranked by how
 * often the brand occurs, and the four brand types map to quartiles 1..4, an
 * empty quartile being replaced by a nearby non-empty one.
 */
module BrandBuckets {
  import opened Wrappers
  import opened Grouping
  import opened Ordering
  import opened Quartiles
  import Labels

  // ---------------------------------------------------------------------
  // The brand list: one (brand, median, count) entry per grouped brand
  // ---------------------------------------------------------------------

  /** The brand-list entry of a brand with prices: its median price and its row count. */
  function Stat(rows: seq<Row>, b: string): BrandStat
    requires |PricesOf(rows, b)| > 0
  {
    BrandStat(b, Median(PricesOf(rows, b)), |PricesOf(rows, b)|)
  }

  /** The brand-list entries for `bids`: each brand with prices contributes its `Stat`. */
  function StatsFor(rows: seq<Row>, bids: seq<string>): seq<BrandStat>
    decreases |bids|
  {
    if bids == [] then []
    else
      var b := bids[|bids| - 1];
      StatsFor(rows, bids[..|bids| - 1]) + (if |PricesOf(rows, b)| > 0 then [Stat(rows, b)] else [])
  }

  /** `brand_list` before it is sorted. */
  function BrandStats(rows: seq<Row>): seq<BrandStat> {
    StatsFor(rows, BrandOrder(rows))
  }

  lemma {:induction false} StatsForPriced(rows: seq<Row>, bids: seq<string>)
    requires forall b :: b in bids ==> |PricesOf(rows, b)| > 0
    ensures |StatsFor(rows, bids)| == |bids|
    ensures forall i :: 0 <= i < |bids| ==> StatsFor(rows, bids)[i] == Stat(rows, bids[i])
    decreases |bids|
  {
    if bids != [] {
      var init := bids[..|bids| - 1];
      var last := bids[|bids| - 1];
      assert forall b :: b in init ==> b in bids;
      StatsForPriced(rows, init);
      var r := StatsFor(rows, bids);
      assert r == StatsFor(rows, init) + [Stat(rows, last)];
      forall i | 0 <= i < |bids| ensures r[i] == Stat(rows, bids[i]) {
        if i < |init| {
          assert bids[i] == init[i];
        }
      }
    }
  }

  /**
   * The "has prices" filter drops no brand: the brand list has one entry per
   * grouped brand, in first-appearance order, with that brand's median price
   * and row count.
   */
  lemma BrandStatsOfRows(rows: seq<Row>)
    ensures forall b :: b in BrandOrder(rows) ==> |PricesOf(rows, b)| > 0
    ensures |BrandStats(rows)| == |BrandOrder(rows)|
    ensures forall i :: 0 <= i < |BrandOrder(rows)| ==> BrandStats(rows)[i] == Stat(rows, BrandOrder(rows)[i])
    ensures Bids(BrandStats(rows)) == BrandOrder(rows)
  {
    forall b | b in BrandOrder(rows) ensures |PricesOf(rows, b)| > 0 {
      BrandListedIffPriced(rows, b);
    }
    StatsForPriced(rows, BrandOrder(rows));
  }

  /**
   * The loop over `brands.items()` that appends `(bid, median, count)` for
   * every brand with prices.
   */
  method ListMedians(order: seq<string>, brands: map<string, Entry>, ghost rows: seq<Row>)
    returns (brandList: seq<BrandStat>)
    requires forall b :: b in order ==>
      b in brands && brands[b].prices == PricesOf(rows, b) && brands[b].count == |brands[b].prices|
    ensures brandList == StatsFor(rows, order)
  {
    brandList := [];
    for j := 0 to |order|
      invariant brandList == StatsFor(rows, order[..j])
    {
      assert order[..j + 1][..j] == order[..j];
      var bid := order[j];
      var info := brands[bid];
      if |info.prices| > 0 {
        brandList := brandList + [BrandStat(bid, Median(info.prices), info.count)];
        assert brandList[|brandList| - 1] == Stat(rows, bid);
      }
    }
    assert order[..|order|] == order;
  }

  // ---------------------------------------------------------------------
  // Ranking inside each quartile
  // ---------------------------------------------------------------------

  /** `quartile_map` after the ranking loop: quartile number to brand ids. */
  function Ranked(sorted: seq<BrandStat>): map<int, seq<string>> {
    map q | 1 <= q <= 4 :: RankIds(Quartile(sorted, q))
  }

  /** One quartile's brand ids, ranked by count descending then median ascending. */
  function RankIds(items: seq<BrandStat>): seq<string> {
    Bids(StableSort(ByCountThenMedian, items))
  }

  /** The ranking loop over quartiles 1..4: sort each by (-count, median), then keep the brand ids. */
  method RankQuartiles(qm: map<int, seq<BrandStat>>) returns (ranked: map<int, seq<string>>)
    requires forall q :: 1 <= q <= 4 ==> q in qm
    ensures forall q :: q in ranked <==> 1 <= q <= 4
    ensures forall q :: 1 <= q <= 4 ==> ranked[q] == RankIds(qm[q])
  {
    ranked := map[1 := [], 2 := [], 3 := [], 4 := []];
    for q := 1 to 5
      invariant forall p :: p in ranked <==> 1 <= p <= 4
      invariant forall p :: 1 <= p < q ==> ranked[p] == RankIds(qm[p])
    {
      ranked := ranked[q := RankIds(qm[q])];
    }
  }

  /** The first brand of a ranked quartile has the highest count there, and the lowest median among equal counts. */
  lemma RankedHeadIsBest(s: seq<BrandStat>, x: BrandStat)
    requires x in s
    ensures StableSort(ByCountThenMedian, s) != []
    ensures var h := StableSort(ByCountThenMedian, s)[0];
      h.count > x.count || (h.count == x.count && h.median <= x.median)
  {
    var r := StableSort(ByCountThenMedian, s);
    StableSortSorted(ByCountThenMedian, s);
    assert x in multiset(r);
    var i :| 0 <= i < |r| && r[i] == x;
    if i > 0 {
      assert !Precedes(ByCountThenMedian, r[i], r[0]);
    }
  }

  /**
   * Quartiles are contiguous in price order: every brand of an earlier quartile
   * has a median no higher than every brand of a later one.
   */
  lemma QuartilesOrderedByMedian(stats: seq<BrandStat>, p: int, q: int, x: BrandStat, y: BrandStat)
    requires 1 <= p < q <= 4
    requires x in Quartile(StableSort(ByMedian, stats), p) && y in Quartile(StableSort(ByMedian, stats), q)
    ensures x.median <= y.median
  {
    var s := StableSort(ByMedian, stats);
    StableSortSorted(ByMedian, stats);
    var n := |s|;
    LoHiOrdered(p, n);
    LoHiOrdered(q, n);
    LoHiMonotone(p, q, n);
    var i :| Lo(p, n) <= i < Hi(p, n) && s[i] == x;
    var j :| Lo(q, n) <= j < Hi(q, n) && s[j] == y;
    assert !Precedes(ByMedian, s[j], s[i]);
  }

  // ---------------------------------------------------------------------
  // Brand types and the fallback search
  // ---------------------------------------------------------------------

  /** The four keys of `mapping`; the bucket table is keyed by them. */
  datatype BrandType = FastFashion | MidRange | Sustainable | Luxury

  /** The keys of `mapping`, in its order. */
  const Tiers: seq<BrandType> := [FastFashion, MidRange, Sustainable, Luxury]

  /** The quartile `mapping` assigns to a brand type. */
  function TargetQuartile(t: BrandType): (q: int)
    ensures 1 <= q <= 4
    ensures Tiers[q - 1] == t
  {
    match t
    case FastFashion => 1
    case MidRange => 2
    case Sustainable => 3
    case Luxury => 4
  }

  /** The dictionary key of a brand type. */
  function Name(t: BrandType): string {
    match t
    case FastFashion => "fast_fashion"
    case MidRange => "mid_range"
    case Sustainable => "sustainable"
    case Luxury => "luxury"
  }

  /** Looking a string up among the four keys of the bucket table. */
  function ParseTier(key: string): (r: Option<BrandType>)
    ensures r.Some? ==> Name(r.value) == key
  {
    if key == "fast_fashion" then Some(FastFashion)
    else if key == "mid_range" then Some(MidRange)
    else if key == "sustainable" then Some(Sustainable)
    else if key == "luxury" then Some(Luxury)
    else None
  }

  /** Every brand type is found under its own key. */
  lemma ParseName(t: BrandType)
    ensures ParseTier(Name(t)) == Some(t)
  {
    match t
    case FastFashion =>
    case MidRange => assert |Name(t)| == 9;
    case Sustainable => assert |Name(t)| == 11;
    case Luxury => assert |Name(t)| == 6;
  }

  /** The offsets the fallback search tries, in order. */
  const Offsets: seq<int> := [1, -1, 2, -2]

  /** `alt in quartile_map and quartile_map[alt]`. */
  predicate Usable(qm: map<int, seq<string>>, alt: int) {
    alt in qm && qm[alt] != []
  }

  /** The fallback search from the `k`-th offset on. */
  function Fallback(qm: map<int, seq<string>>, q: int, k: nat): seq<string>
    requires k <= 4
    decreases 4 - k
  {
    if k == 4 then []
    else if Usable(qm, q + Offsets[k]) then qm[q + Offsets[k]]
    else Fallback(qm, q, k + 1)
  }

  /** The search finds nothing exactly when no offset is usable, and otherwise the first usable one. */
  lemma {:induction false} FallbackChoice(qm: map<int, seq<string>>, q: int, k: nat)
    requires k <= 4
    ensures Fallback(qm, q, k) == [] <==> forall j :: k <= j < 4 ==> !Usable(qm, q + Offsets[j])
    ensures Fallback(qm, q, k) != [] ==>
      exists j :: k <= j < 4 && Usable(qm, q + Offsets[j]) && Fallback(qm, q, k) == qm[q + Offsets[j]] &&
                  (forall j' :: k <= j' < j ==> !Usable(qm, q + Offsets[j']))
    decreases 4 - k
  {
    if k < 4 && !Usable(qm, q + Offsets[k]) {
      FallbackChoice(qm, q, k + 1);
    }
  }

  /**
   * The candidates of the brand type that targets quartile `q`: that quartile
   * when it is not empty, otherwise the first non-empty quartile among q+1,
   * q-1, q+2, q-2, otherwise none.
   */
  function TierCandidates(qm: map<int, seq<string>>, q: int): seq<string> {
    var candidates := if q in qm then qm[q] else [];
    if candidates != [] then candidates else Fallback(qm, q, 0)
  }

  /** The choice `TierCandidates` makes, stated without the search. */
  lemma TierCandidatesChoice(qm: map<int, seq<string>>, q: int)
    ensures Usable(qm, q) ==> TierCandidates(qm, q) == qm[q]
    ensures !Usable(qm, q) ==> (TierCandidates(qm, q) == [] <==> forall j :: 0 <= j < 4 ==> !Usable(qm, q + Offsets[j]))
    ensures !Usable(qm, q) && TierCandidates(qm, q) != [] ==>
      exists j :: 0 <= j < 4 && Usable(qm, q + Offsets[j]) && TierCandidates(qm, q) == qm[q + Offsets[j]] &&
                  (forall j' :: 0 <= j' < j ==> !Usable(qm, q + Offsets[j']))
  {
    FallbackChoice(qm, q, 0);
  }

  /** The inner loop over the offsets, with its early `break`. */
  method ResolveTier(qm: map<int, seq<string>>, q: int) returns (candidates: seq<string>)
    ensures candidates == TierCandidates(qm, q)
  {
    candidates := if q in qm then qm[q] else [];
    if candidates == [] {
      for k := 0 to |Offsets|
        invariant candidates == [] && Fallback(qm, q, k) == Fallback(qm, q, 0)
      {
        var alt := q + Offsets[k];
        if alt in qm && qm[alt] != [] {
          candidates := qm[alt];
          break;
        }
      }
    }
  }

  /** Every brand type with the candidates of its quartile. */
  function TierTable(ranked: map<int, seq<string>>): map<BrandType, seq<string>> {
    map t | t in Tiers :: TierCandidates(ranked, TargetQuartile(t))
  }

  /** The loop over `mapping.items()` that resolves every brand type. */
  method MapTiers(ranked: map<int, seq<string>>) returns (result: map<BrandType, seq<string>>)
    ensures result == TierTable(ranked)
  {
    result := map[];
    for t := 0 to |Tiers|
      invariant forall bt :: bt in result <==> TargetQuartile(bt) <= t
      invariant forall bt :: bt in result ==> result[bt] == TierCandidates(ranked, TargetQuartile(bt))
    {
      var bt := Tiers[t];
      var candidates := ResolveTier(ranked, TargetQuartile(bt));
      result := result[bt := candidates];
    }
    TierTableKeys(ranked, result);
  }

  /** The table has an entry for every brand type. */
  lemma TierTableDomain(ranked: map<int, seq<string>>)
    ensures forall bt :: bt in TierTable(ranked)
  {
    forall bt ensures bt in TierTable(ranked) {
      match bt
      case FastFashion =>
      case MidRange =>
      case Sustainable =>
      case Luxury =>
    }
  }

  lemma TierTableKeys(ranked: map<int, seq<string>>, result: map<BrandType, seq<string>>)
    requires forall bt :: bt in result
    requires forall bt :: result[bt] == TierCandidates(ranked, TargetQuartile(bt))
    ensures result == TierTable(ranked)
  {
    TierTableDomain(ranked);
  }

  /** The bucket table built from a brand list in first-appearance order. */
  function BucketsOf(stats: seq<BrandStat>): map<BrandType, seq<string>> {
    if stats == [] then map[] else TierTable(Ranked(StableSort(ByMedian, stats)))
  }

  /** `_build_brand_type_buckets()` over the rows of the price table. */
  function Buckets(rows: seq<Row>): map<BrandType, seq<string>> {
    BucketsOf(BrandStats(rows))
  }

  /** `_build_brand_type_buckets`: group, take medians, sort, partition, rank, map the brand types. */
  method BuildBrandTypeBuckets(rows: seq<Row>) returns (result: map<BrandType, seq<string>>)
    ensures result == Buckets(rows)
  {
    var order, brands := GroupRows(rows);
    var brandList := ListMedians(order, brands, rows);
    if brandList == [] {
      return map[];
    }
    brandList := StableSort(ByMedian, brandList);
    var quartileMap := Partition(brandList);
    var ranked := RankQuartiles(quartileMap);
    assert ranked == Ranked(brandList);
    result := MapTiers(ranked);
  }

  // ---------------------------------------------------------------------
  // Properties of the bucket table
  // ---------------------------------------------------------------------

  /**
   * Which ranked quartiles hold brands: with four or more brands all four do,
   * and with fewer only quartiles 1 to n.
   */
  lemma RankedUsable(sorted: seq<BrandStat>, q: int)
    ensures Usable(Ranked(sorted), q) <==> 1 <= q <= 4 && (|sorted| >= 4 || q <= |sorted|)
  {
    if 1 <= q <= 4 {
      QuartileSizes(sorted, q);
    }
  }

  /** Which quartiles of a sorted brand list of length `n` hold brands: 1..n, or all four once n >= 4. */
  lemma RankedUsableAll(sorted: seq<BrandStat>)
    ensures forall q :: Usable(Ranked(sorted), q) <==> 1 <= q <= 4 && (|sorted| >= 4 || q <= |sorted|)
  {
    forall q ensures Usable(Ranked(sorted), q) <==> 1 <= q <= 4 && (|sorted| >= 4 || q <= |sorted|) {
      RankedUsable(sorted, q);
    }
  }

  /**
   * The fallback over a ranked map whose quartiles 1..n (all four once n >= 4)
   * hold brands: the first three brand types always get candidates, and
   * luxury gets none exactly when n is 1.
   */
  lemma FallbackFills(ranked: map<int, seq<string>>, n: nat)
    requires n >= 1
    requires forall q :: Usable(ranked, q) <==> 1 <= q <= 4 && (n >= 4 || q <= n)
    ensures forall bt :: bt in TierTable(ranked)
    ensures var table := TierTable(ranked);
      table[FastFashion] != [] && table[MidRange] != [] && table[Sustainable] != [] &&
      (table[Luxury] == [] <==> n == 1)
  {
    TierTableDomain(ranked);
    TierCandidatesChoice(ranked, 1);
    TierCandidatesChoice(ranked, 2);
    TierCandidatesChoice(ranked, 3);
    TierCandidatesChoice(ranked, 4);
    assert Usable(ranked, 1);
    if n == 1 {
      assert TierCandidates(ranked, 2) != [] by { assert Usable(ranked, 2 + Offsets[1]); }
      assert TierCandidates(ranked, 3) != [] by { assert Usable(ranked, 3 + Offsets[3]); }
      assert TierCandidates(ranked, 4) == [] by {
        assert forall j :: 0 <= j < 4 ==> !Usable(ranked, 4 + Offsets[j]);
      }
    } else if n == 2 {
      assert TierCandidates(ranked, 3) != [] by { assert Usable(ranked, 3 + Offsets[1]); }
      assert TierCandidates(ranked, 4) != [] by { assert Usable(ranked, 4 + Offsets[3]); }
    } else if n == 3 {
      assert TierCandidates(ranked, 4) != [] by { assert Usable(ranked, 4 + Offsets[1]); }
    }
  }

  /** A brand list with entries gives a table with all four brand types. */
  lemma BucketsOfDomain(stats: seq<BrandStat>)
    requires stats != []
    ensures forall bt :: bt in BucketsOf(stats)
  {
    TierTableDomain(Ranked(StableSort(ByMedian, stats)));
  }

  /**
   * With at least one brand, the first three brand types always get
   * candidates, and luxury is left without candidates exactly when there is a
   * single brand.
   */
  lemma TierFill(stats: seq<BrandStat>)
    requires stats != []
    ensures forall bt :: bt in BucketsOf(stats)
    ensures var table := BucketsOf(stats);
      table[FastFashion] != [] && table[MidRange] != [] && table[Sustainable] != [] &&
      (table[Luxury] == [] <==> |stats| == 1)
  {
    var sorted := StableSort(ByMedian, stats);
    RankedUsableAll(sorted);
    FallbackFills(Ranked(sorted), |stats|);
  }

  /** The table is empty exactly when no row contributes a price. */
  lemma BucketsEmpty(rows: seq<Row>)
    ensures Buckets(rows) == map[] <==> forall i :: 0 <= i < |rows| ==> !Contributes(rows[i])
  {
    BrandStatsOfRows(rows);
    if BrandOrder(rows) != [] {
      var b := BrandOrder(rows)[0];
      BrandListedIffPriced(rows, b);
      BucketsOfDomain(BrandStats(rows));
      assert FastFashion in Buckets(rows);
    } else {
      forall i | 0 <= i < |rows| ensures !Contributes(rows[i]) {
        if Contributes(rows[i]) {
          BrandListedIffPriced(rows, rows[i].brandId.value);
        }
      }
    }
  }

  /** Once any row contributes, every brand type is a key of the table. */
  lemma BucketsKeys(rows: seq<Row>, t: BrandType)
    requires exists i :: 0 <= i < |rows| && Contributes(rows[i])
    ensures t in Buckets(rows)
  {
    BucketsEmpty(rows);
    BrandStatsOfRows(rows);
    BucketsOfDomain(BrandStats(rows));
  }

  /** The candidates of a brand type are one whole ranked quartile. */
  lemma CandidatesFromQuartile(ranked: map<int, seq<string>>, q: int)
    requires TierCandidates(ranked, q) != []
    ensures exists alt :: alt in ranked && TierCandidates(ranked, q) == ranked[alt]
  {
    TierCandidatesChoice(ranked, q);
    if !Usable(ranked, q) {
      var j :| 0 <= j < 4 && Usable(ranked, q + Offsets[j]) && TierCandidates(ranked, q) == ranked[q + Offsets[j]];
    }
  }

  /** What a sort returns holds only what it was given. */
  lemma SortedMember(k: SortKey, s: seq<BrandStat>, x: BrandStat)
    requires x in StableSort(k, s)
    ensures x in s
  {
    assert x in multiset(StableSort(k, s));
  }

  /** A quartile holds only entries of the list it was cut from. */
  lemma QuartileMember<T>(s: seq<T>, q: int, x: T)
    requires 1 <= q <= 4 && x in Quartile(s, q)
    ensures x in s
  {
    LoHiOrdered(q, |s|);
  }

  /** Every id of a ranked quartile is the id of one of its entries. */
  lemma RankIdsMember(items: seq<BrandStat>, b: string)
    requires b in RankIds(items)
    ensures exists x :: x in items && x.bid == b
  {
    var ranked := StableSort(ByCountThenMedian, items);
    var i :| 0 <= i < |ranked| && Bids(ranked)[i] == b;
    SortedMember(ByCountThenMedian, items, ranked[i]);
  }

  /** Every brand id in a ranked quartile is the id of an entry of the sorted list. */
  lemma RankedMember(sorted: seq<BrandStat>, q: int, b: string)
    requires 1 <= q <= 4 && b in Ranked(sorted)[q]
    ensures exists x :: x in sorted && x.bid == b
  {
    var part := Quartile(sorted, q);
    RankIdsMember(part, b);
    var x :| x in part && x.bid == b;
    QuartileMember(sorted, q, x);
  }

  /** Every candidate in a table built from a brand list is the id of one of its entries. */
  lemma CandidatesInStats(stats: seq<BrandStat>, t: BrandType, b: string)
    requires t in BucketsOf(stats) && b in BucketsOf(stats)[t]
    ensures exists k :: 0 <= k < |stats| && stats[k].bid == b
  {
    var sorted := StableSort(ByMedian, stats);
    var ranked := Ranked(sorted);
    assert BucketsOf(stats)[t] == TierCandidates(ranked, TargetQuartile(t));
    CandidatesFromQuartile(ranked, TargetQuartile(t));
    var alt :| alt in ranked && BucketsOf(stats)[t] == ranked[alt];
    RankedMember(sorted, alt, b);
    var x :| x in sorted && x.bid == b;
    SortedMember(ByMedian, stats, x);
  }

  /** The ids of the brand list are the grouped brands, in order. */
  lemma BrandStatsIds(rows: seq<Row>)
    ensures Bids(BrandStats(rows)) == BrandOrder(rows)
  {
    BrandStatsOfRows(rows);
  }

  /** Every candidate in the table is a brand that some contributing row names. */
  lemma CandidatesAreKnown(rows: seq<Row>, t: BrandType, b: string)
    requires t in Buckets(rows) && b in Buckets(rows)[t]
    ensures b in BrandOrder(rows)
  {
    var stats := BrandStats(rows);
    CandidatesInStats(stats, t, b);
    var k :| 0 <= k < |stats| && stats[k].bid == b;
    BrandStatsIds(rows);
    assert Bids(stats)[k] == b;
  }

  /** A ranked map with one brand, in quartile 1, fills every brand type but luxury with it. */
  lemma OneQuartileFills(ranked: map<int, seq<string>>, b: string)
    requires forall q :: q in ranked <==> 1 <= q <= 4
    requires ranked[1] == [b] && ranked[2] == [] && ranked[3] == [] && ranked[4] == []
    ensures TierTable(ranked) == map[FastFashion := [b], MidRange := [b], Sustainable := [b], Luxury := []]
  {
    TierTableDomain(ranked);
    TierCandidatesChoice(ranked, 2);
    TierCandidatesChoice(ranked, 3);
    TierCandidatesChoice(ranked, 4);
    assert TierCandidates(ranked, 2) == [b] by { assert Usable(ranked, 2 + Offsets[1]); }
    assert TierCandidates(ranked, 3) == [b] by {
      assert !Usable(ranked, 3 + Offsets[0]) && !Usable(ranked, 3 + Offsets[1]) && !Usable(ranked, 3 + Offsets[2]);
      assert Usable(ranked, 3 + Offsets[3]);
    }
    assert TierCandidates(ranked, 4) == [] by {
      assert forall j :: 0 <= j < 4 ==> !Usable(ranked, 4 + Offsets[j]);
    }
    TableOfValues(TierTable(ranked), [b], [b], [b], []);
  }

  /** The ranked map of a one-entry brand list. */
  lemma RankedOfOne(x: BrandStat)
    ensures forall q :: q in Ranked([x]) <==> 1 <= q <= 4
    ensures Ranked([x])[1] == [x.bid] && Ranked([x])[2] == [] && Ranked([x])[3] == [] && Ranked([x])[4] == []
  {
    QuartileSizes([x], 1);
    QuartileSizes([x], 2);
    QuartileSizes([x], 3);
    QuartileSizes([x], 4);
    StableSortOfSorted(ByCountThenMedian, [x]);
  }

  /**
   * A single brand fills every brand type but luxury: fast fashion, mid range
   * and sustainable all fall back to the one quartile that holds it.
   */
  lemma SingleBrand(rows: seq<Row>)
    requires |BrandOrder(rows)| == 1
    ensures var b := BrandOrder(rows)[0];
      Buckets(rows) == map[FastFashion := [b], MidRange := [b], Sustainable := [b], Luxury := []]
  {
    var stats := BrandStats(rows);
    BrandStatsOfRows(rows);
    assert stats == [stats[0]];
    assert stats[0].bid == BrandOrder(rows)[0] by { assert Bids(stats)[0] == BrandOrder(rows)[0]; }
    StableSortOfSorted(ByMedian, stats);
    RankedOfOne(stats[0]);
    OneQuartileFills(Ranked(stats), stats[0].bid);
  }

  /** Quartile `q` of the median-sorted list, ranked by count descending then median ascending. */
  function RankedList(sorted: seq<BrandStat>, q: int): seq<BrandStat>
    requires 1 <= q <= 4
  {
    StableSort(ByCountThenMedian, Quartile(sorted, q))
  }

  /** Sorting by median and partitioning loses and duplicates no brand-list entry. */
  lemma QuartilesPartitionBrands(stats: seq<BrandStat>)
    ensures var sorted := StableSort(ByMedian, stats);
      multiset(RankedList(sorted, 1)) + multiset(RankedList(sorted, 2)) +
      multiset(RankedList(sorted, 3)) + multiset(RankedList(sorted, 4)) == multiset(stats)
  {
    QuartilesCover(StableSort(ByMedian, stats));
  }

  /** A ranked map whose four quartiles all hold brands: every brand type keeps its own quartile. */
  lemma FullTable(ranked: map<int, seq<string>>)
    requires forall q :: 1 <= q <= 4 ==> q in ranked && ranked[q] != []
    ensures TierTable(ranked) == map[FastFashion := ranked[1], MidRange := ranked[2], Sustainable := ranked[3], Luxury := ranked[4]]
  {
    TierTableDomain(ranked);
    TierCandidatesChoice(ranked, 1);
    TierCandidatesChoice(ranked, 2);
    TierCandidatesChoice(ranked, 3);
    TierCandidatesChoice(ranked, 4);
    TableOfValues(TierTable(ranked), ranked[1], ranked[2], ranked[3], ranked[4]);
  }

  /** A table holding every brand type is the display of its four values. */
  lemma TableOfValues(table: map<BrandType, seq<string>>, f: seq<string>, m: seq<string>, s: seq<string>, l: seq<string>)
    requires forall bt :: bt in table
    requires table[FastFashion] == f && table[MidRange] == m && table[Sustainable] == s && table[Luxury] == l
    ensures table == map[FastFashion := f, MidRange := m, Sustainable := s, Luxury := l]
  {
    var expected := map[FastFashion := f, MidRange := m, Sustainable := s, Luxury := l];
    forall bt ensures bt in expected && table[bt] == expected[bt] {
      match bt
      case FastFashion =>
      case MidRange =>
      case Sustainable =>
      case Luxury =>
    }
  }

  /** Two brands ranked within a quartile: the more frequent one first. */
  lemma RankTwo(x: BrandStat, y: BrandStat)
    requires x.count < y.count
    ensures RankIds([x, y]) == [y.bid, x.bid]
  {
    assert [x, y][1..] == [y];
    assert StableSort(ByCountThenMedian, [y]) == [y] by { StableSortOfSorted(ByCountThenMedian, [y]); }
    assert Insert(ByCountThenMedian, x, []) == [x];
    assert StableSort(ByCountThenMedian, [x, y]) == [y, x];
  }

  /** A single brand ranked within its quartile. */
  lemma RankOne(x: BrandStat)
    ensures RankIds([x]) == [x.bid]
  {
    StableSortOfSorted(ByCountThenMedian, [x]);
  }

  /** With five brands the quartile size is one, and the fifth brand joins the fourth in quartile 4. */
  lemma FiveQuartiles<T>(s: seq<T>)
    requires |s| == 5
    ensures Quartile(s, 1) == [s[0]] && Quartile(s, 2) == [s[1]] && Quartile(s, 3) == [s[2]]
    ensures Quartile(s, 4) == [s[3], s[4]]
  {
  }

  /** The example brand list is already in median order. */
  lemma ExampleSorted(stats: seq<BrandStat>, a: string, b: string, c: string, d: string, e: string)
    requires stats == [BrandStat(a, 10.0, 1), BrandStat(b, 20.0, 3), BrandStat(c, 30.0, 1),
                       BrandStat(d, 40.0, 1), BrandStat(e, 50.0, 2)]
    ensures StableSort(ByMedian, stats) == stats
  {
    assert SortedBy(ByMedian, stats);
    StableSortOfSorted(ByMedian, stats);
  }

  /**
   * Five brands with medians 10, 20, 30, 40 and 50: with a quartile size of one
   * the last two share quartile 4, where the brand seen in two rows outranks
   * the cheaper brand seen in one, so it becomes the luxury choice.
   */
  lemma RankingExample(stats: seq<BrandStat>, a: string, b: string, c: string, d: string, e: string)
    requires stats == [BrandStat(a, 10.0, 1), BrandStat(b, 20.0, 3), BrandStat(c, 30.0, 1),
                       BrandStat(d, 40.0, 1), BrandStat(e, 50.0, 2)]
    ensures BucketsOf(stats) == map[FastFashion := [a], MidRange := [b], Sustainable := [c], Luxury := [e, d]]
  {
    ExampleSorted(stats, a, b, c, d, e);
    BucketsOfSorted(stats);
    ExampleRanked(stats, a, b, c, d, e);
    ExampleTable(Ranked(stats), a, b, c, d, e);
  }

  /** A brand list already in median order is partitioned as it stands. */
  lemma BucketsOfSorted(stats: seq<BrandStat>)
    requires stats != [] && StableSort(ByMedian, stats) == stats
    ensures BucketsOf(stats) == TierTable(Ranked(stats))
  {
  }

  lemma ExampleTable(ranked: map<int, seq<string>>, a: string, b: string, c: string, d: string, e: string)
    requires forall q :: q in ranked <==> 1 <= q <= 4
    requires ranked[1] == [a] && ranked[2] == [b] && ranked[3] == [c] && ranked[4] == [e, d]
    ensures TierTable(ranked) == map[FastFashion := [a], MidRange := [b], Sustainable := [c], Luxury := [e, d]]
  {
    FullTable(ranked);
  }

  /** The example's ranked quartiles. */
  lemma ExampleRanked(stats: seq<BrandStat>, a: string, b: string, c: string, d: string, e: string)
    requires stats == [BrandStat(a, 10.0, 1), BrandStat(b, 20.0, 3), BrandStat(c, 30.0, 1),
                       BrandStat(d, 40.0, 1), BrandStat(e, 50.0, 2)]
    ensures forall q :: q in Ranked(stats) <==> 1 <= q <= 4
    ensures Ranked(stats)[1] == [a] && Ranked(stats)[2] == [b] && Ranked(stats)[3] == [c] && Ranked(stats)[4] == [e, d]
  {
    FiveQuartiles(stats);
    RankOne(stats[0]);
    RankOne(stats[1]);
    RankOne(stats[2]);
    RankTwo(stats[3], stats[4]);
  }

  /** With four brands every quartile holds exactly one brand. */
  lemma FourQuartiles<T>(s: seq<T>)
    requires |s| == 4
    ensures Quartile(s, 1) == [s[0]] && Quartile(s, 2) == [s[1]] && Quartile(s, 3) == [s[2]] && Quartile(s, 4) == [s[3]]
  {
  }

  /**
   * Four brands with medians 10, 20, 30 and 40, the cheapest seen in five rows:
   * one brand per quartile, so each tier gets its own quartile's brand and the
   * counts change nothing.
   */
  lemma FourBrandExample(stats: seq<BrandStat>, a: string, b: string, c: string, d: string)
    requires stats == [BrandStat(a, 10.0, 5), BrandStat(b, 20.0, 1), BrandStat(c, 30.0, 1), BrandStat(d, 40.0, 1)]
    ensures BucketsOf(stats) == map[FastFashion := [a], MidRange := [b], Sustainable := [c], Luxury := [d]]
  {
    FourSorted(stats, a, b, c, d);
    BucketsOfSorted(stats);
    FourRanked(stats);
    FourTable(Ranked(stats), a, b, c, d);
  }

  /** The four-brand example is already in median order. */
  lemma FourSorted(stats: seq<BrandStat>, a: string, b: string, c: string, d: string)
    requires stats == [BrandStat(a, 10.0, 5), BrandStat(b, 20.0, 1), BrandStat(c, 30.0, 1), BrandStat(d, 40.0, 1)]
    ensures StableSort(ByMedian, stats) == stats
  {
    assert SortedBy(ByMedian, stats);
    StableSortOfSorted(ByMedian, stats);
  }

  lemma FourTable(ranked: map<int, seq<string>>, a: string, b: string, c: string, d: string)
    requires forall q :: q in ranked <==> 1 <= q <= 4
    requires ranked[1] == [a] && ranked[2] == [b] && ranked[3] == [c] && ranked[4] == [d]
    ensures TierTable(ranked) == map[FastFashion := [a], MidRange := [b], Sustainable := [c], Luxury := [d]]
  {
    FullTable(ranked);
  }

  /** The ranked quartiles of a four-brand list: one brand id each. */
  lemma FourRanked(stats: seq<BrandStat>)
    requires |stats| == 4
    ensures forall q :: q in Ranked(stats) <==> 1 <= q <= 4
    ensures Ranked(stats)[1] == [stats[0].bid] && Ranked(stats)[2] == [stats[1].bid]
    ensures Ranked(stats)[3] == [stats[2].bid] && Ranked(stats)[4] == [stats[3].bid]
  {
    FourQuartiles(stats);
    RankOne(stats[0]);
    RankOne(stats[1]);
    RankOne(stats[2]);
    RankOne(stats[3]);
  }

  // ---------------------------------------------------------------------
  // choose_brand_for_type
  // ---------------------------------------------------------------------

  /** `s.replace("-", "_")`. */
  function DashToUnderscore(s: string): (r: string)
    ensures |r| == |s|
    ensures forall i :: 0 <= i < |s| ==> r[i] == (if s[i] == '-' then '_' else s[i])
  {
    if s == [] then [] else [if s[0] == '-' then '_' else s[0]] + DashToUnderscore(s[1..])
  }

  /** `brand_type.lower().replace("-", "_")`: the key looked up in the table. */
  function TierKey(s: string): (r: string)
    ensures |r| == |s|
    ensures forall i :: 0 <= i < |s| ==> r[i] == (if s[i] == '-' then '_' else Labels.LowerChar(s[i]))
  {
    DashToUnderscore(Labels.Lower(s))
  }

  /** Normalising a normalised key changes nothing. */
  lemma TierKeyIdempotent(s: string)
    ensures TierKey(TierKey(s)) == TierKey(s)
  {
    var k := TierKey(s);
    assert forall i :: 0 <= i < |k| ==> TierKey(k)[i] == k[i];
  }

  /** Every key of the table is already in normal form. */
  lemma TierKeyOfName(t: BrandType)
    ensures TierKey(Name(t)) == Name(t)
  {
    var n := Name(t);
    assert forall i :: 0 <= i < |n| ==> ('a' <= n[i] <= 'z' || n[i] == '_');
    assert forall i :: 0 <= i < |n| ==> TierKey(n)[i] == n[i];
  }

  /**
   * `choose_brand_for_type`: nothing for a missing or empty brand type,
   * otherwise the first candidate listed under its normalised key, if any.
   */
  function ChooseBrandForType(buckets: map<BrandType, seq<string>>, brandType: Option<string>): (r: Option<string>)
    ensures brandType.None? || brandType.value == "" ==> r.None?
    ensures r.Some? ==> exists t :: t in buckets && Name(t) == TierKey(brandType.value) &&
                                    buckets[t] != [] && r.value == buckets[t][0]
  {
    if brandType.None? || brandType.value == "" then None
    else
      match ParseTier(TierKey(brandType.value))
      case None => None
      case Some(t) =>
        var candidates := if t in buckets then buckets[t] else [];
        if candidates != [] then Some(candidates[0]) else None
  }

  /** The choice depends on the brand type only through its normalised key. */
  lemma ChooseByKey(buckets: map<BrandType, seq<string>>, s: string, t: BrandType)
    requires s != "" && TierKey(s) == Name(t)
    ensures ChooseBrandForType(buckets, Some(s)) ==
      (if t in buckets && buckets[t] != [] then Some(buckets[t][0]) else None)
  {
    ParseName(t);
  }

  /**
   * Over the table of a price table with at least one contributing row,
   * every brand type yields a brand that the table names, except luxury
   * when there is a single brand.
   */
  lemma ChooseFromRows(rows: seq<Row>, t: BrandType)
    requires exists i :: 0 <= i < |rows| && Contributes(rows[i])
    ensures var r := ChooseBrandForType(Buckets(rows), Some(Name(t)));
      (r.None? <==> t == Luxury && |BrandOrder(rows)| == 1) &&
      (r.Some? ==> r.value in BrandOrder(rows))
  {
    var stats := BrandStats(rows);
    BucketsEmpty(rows);
    BrandStatsIds(rows);
    assert |stats| == |BrandOrder(rows)|;
    TierFill(stats);
    TierKeyOfName(t);
    assert Name(t) != "" by { ParseName(t); }
    ChooseByKey(Buckets(rows), Name(t), t);
    var r := ChooseBrandForType(Buckets(rows), Some(Name(t)));
    if r.Some? {
      CandidatesAreKnown(rows, t, r.value);
    }
  }

  /** Normalising a concatenation normalises each part. */
  lemma TierKeyAppend(a: string, b: string)
    ensures TierKey(a + b) == TierKey(a) + TierKey(b)
  {
    Labels.LowerAppend(a, b);
    DashAppend(Labels.Lower(a), Labels.Lower(b));
  }

  lemma {:induction false} DashAppend(a: string, b: string)
    ensures DashToUnderscore(a + b) == DashToUnderscore(a) + DashToUnderscore(b)
  {
    if a != [] {
      assert (a + b)[1..] == a[1..] + b;
      DashAppend(a[1..], b);
    }
  }

  // Keys of short literal pieces. Each is evaluated in a proof of its own: evaluating the
  // whole example string in one proof is more than the verifier's resource limit allows.
  lemma TierKeyFastDash() ensures TierKey("Fast-") == "fast_" {}
  lemma TierKeyFashion() ensures TierKey("Fashion") == "fashion" {}

  /** "Fast-Fashion" normalises to the key of fast fashion. */
  lemma TierKeyFastFashion(s: string)
    requires s == "Fast-Fashion"
    ensures TierKey(s) == Name(FastFashion)
  {
    FastFashionPieces(s);
    TierKeyAppend("Fast-", "Fashion");
    TierKeyFastDash();
    TierKeyFashion();
    FastFashionName();
  }

  /** The example string cut into the pieces above. */
  lemma FastFashionPieces(s: string)
    requires s == "Fast-Fashion"
    ensures s == "Fast-" + "Fashion"
  {
  }

  /** The key of fast fashion, cut the same way. */
  lemma FastFashionName()
    ensures Name(FastFashion) == "fast_" + "fashion"
  {
  }

  /** A spelled-out brand type, in any case and with dashes, selects as its key does. */
  lemma ChooseSpelledType(buckets: map<BrandType, seq<string>>, s: string)
    requires s == "Fast-Fashion"
    ensures ChooseBrandForType(buckets, Some(s)) == ChooseBrandForType(buckets, Some(Name(FastFashion)))
  {
    TierKeyFastFashion(s);
    TierKeyOfName(FastFashion);
    ChooseByKey(buckets, s, FastFashion);
    ChooseByKey(buckets, Name(FastFashion), FastFashion);
  }
}

=== FILE: classifier.dfy ===
/**
 * The scikit-learn classifier both servers load, as an uninterpreted pair of
 * functions, each of which may raise.
 */
module Classifiers {
  import opened Wrappers

  /**
   * A loaded classifier: `predict`, and `predict_proba` when the model has it.
   * Either may raise (a feature row of the wrong width, say), with a message.
   */
  datatype Classifier = Classifier(
    predict: seq<seq<real>> -> Result<seq<int>, string>,
    predictProba: Option<seq<seq<real>> -> Result<seq<seq<real>>, string>>)

  /** What a run of the classifier hands back: the predicted classes and the class probabilities, if any. */
  datatype Outcome = Outcome(prediction: seq<int>, probability: Option<seq<seq<real>>>)

  /**
   * `model.predict(X)`, then `model.predict_proba(X)` when the model has it.
   * The run succeeds only when neither raises; `predict` runs first, so its
   * error is the one reported when both would raise.
   */
  function Classify(model: Classifier, x: seq<seq<real>>): (r: Result<Outcome, string>)
    ensures r.Success? <==>
      model.predict(x).Success? && (model.predictProba.Some? ==> model.predictProba.value(x).Success?)
    ensures r.Success? ==> r.value.prediction == model.predict(x).value
    ensures r.Success? ==> (r.value.probability.Some? <==> model.predictProba.Some?)
    ensures r.Success? && model.predictProba.Some? ==> r.value.probability == Some(model.predictProba.value(x).value)
    ensures model.predict(x).Failure? ==> r == Failure(model.predict(x).error)
  {
    match model.predict(x)
    case Failure(m) => Failure(m)
    case Success(prediction) =>
      if model.predictProba.None? then Success(Outcome(prediction, None))
      else
        match model.predictProba.value(x)
        case Failure(m) => Failure(m)
        case Success(probability) => Success(Outcome(prediction, Some(probability)))
  }
}

=== FILE: fastapi.dfy ===
/**
 * The FastAPI server's `/predict` handler: the model-absent check, the
 * encoding of the three label fields in a fixed order, and the feature row
 * handed to the classifier. The classifier itself is uninterpreted; an
 * exception it raises is not caught and becomes a 500 response.
 */
module FastApiServer {
  import opened Wrappers
  import opened Labels
  import opened Classifiers

  /** The validated request body. */
  datatype PredictRequest = PredictRequest(
    category: string, material: string, brand: string, price: real, expectedWearFrequency: real)

  /** What start-up loaded; each artefact is absent when it could not be loaded. */
  datatype Server = Server(
    model: Option<Classifier>,
    leItem: Option<LabelEncoder>, leMaterial: Option<LabelEncoder>, leBrand: Option<LabelEncoder>)

  datatype Response =
    | Prediction(prediction: seq<int>, probability: Option<seq<seq<real>>>)
    | HttpError(status: int, detail: string)

  /** The response to an exception the handler does not catch. */
  const InternalError: Response := HttpError(500, "Internal Server Error")

  /**
   * `encode_label` on a possibly absent encoder: an absent encoder fails on
   * `encoder.classes_` and the error escapes the handler; an unknown label is
   * the 400 error naming the field.
   */
  function Encode(enc: Option<LabelEncoder>, value: string, name: string): (r: Result<nat, Response>)
    ensures enc.None? ==> r == Failure(InternalError)
    ensures enc.Some? ==> (r.Success? <==> EncodeLabel(enc.value, value, name).Success?)
    ensures r.Success? ==> enc.Some? && r.value < |enc.value.classes|
    ensures enc.Some? && r.Failure? ==> r.error == HttpError(400, Message(UnknownLabel(name, value)))
  {
    if enc.None? then Failure(InternalError)
    else
      match EncodeLabel(enc.value, value, name)
      case Success(code) => Success(code)
      case Failure(err) => Failure(HttpError(400, Message(err)))
  }

  /** `[[item_enc, material_enc, brand_enc, price, expected_wear_frequency]]`, before the model runs. */
  function Features(server: Server, req: PredictRequest): (r: Result<seq<real>, Response>)
    ensures r.Success? ==> |r.value| == 5 && r.value[3] == req.price && r.value[4] == req.expectedWearFrequency
  {
    match Encode(server.leItem, req.category, "category")
    case Failure(e) => Failure(e)
    case Success(item) =>
      match Encode(server.leMaterial, req.material, "material")
      case Failure(e) => Failure(e)
      case Success(material) =>
        match Encode(server.leBrand, req.brand, "brand")
        case Failure(e) => Failure(e)
        case Success(brand) => Success([item as real, material as real, brand as real, req.price, req.expectedWearFrequency])
  }

  /** `predict`: refuse without a model, then encode, then ask the classifier. */
  function Predict(server: Server, req: PredictRequest): (r: Response)
    ensures server.model.None? ==> r == HttpError(500, "Model not loaded.")
    ensures r.Prediction? ==> server.model.Some? && Features(server, req).Success?
  {
    if server.model.None? then HttpError(500, "Model not loaded.")
    else
      var model := server.model.value;
      match Features(server, req)
      case Failure(e) => e
      case Success(row) =>
        match Classify(model, [row])
        case Failure(_) => InternalError
        case Success(out) => Prediction(out.prediction, out.probability)
  }

  /** A missing model is reported before any field is looked at, whatever the encoders and the request. */
  lemma ModelCheckedFirst(server: Server, req: PredictRequest, other: PredictRequest)
    requires server.model.None?
    ensures Predict(server, req) == Predict(server, other) == HttpError(500, "Model not loaded.")
  {
  }

  /** An unknown category is the error reported, whatever the material and brand. */
  lemma CategoryReportedFirst(server: Server, req: PredictRequest)
    requires server.model.Some? && server.leItem.Some?
    requires EncodeLabel(server.leItem.value, req.category, "category").Failure?
    ensures Predict(server, req) == HttpError(400, Message(UnknownLabel("category", req.category)))
  {
  }

  /** With the category known, an unknown material is reported before the brand is looked at. */
  lemma MaterialReportedSecond(server: Server, req: PredictRequest)
    requires server.model.Some? && server.leItem.Some? && server.leMaterial.Some?
    requires EncodeLabel(server.leItem.value, req.category, "category").Success?
    requires EncodeLabel(server.leMaterial.value, req.material, "material").Failure?
    ensures Predict(server, req) == HttpError(400, Message(UnknownLabel("material", req.material)))
  {
  }

  /** With category and material known, an unknown brand is the error reported. */
  lemma BrandReportedLast(server: Server, req: PredictRequest)
    requires server.model.Some? && server.leItem.Some? && server.leMaterial.Some? && server.leBrand.Some?
    requires EncodeLabel(server.leItem.value, req.category, "category").Success?
    requires EncodeLabel(server.leMaterial.value, req.material, "material").Success?
    requires EncodeLabel(server.leBrand.value, req.brand, "brand").Failure?
    ensures Predict(server, req) == HttpError(400, Message(UnknownLabel("brand", req.brand)))
  {
  }

  /**
   * When every field encodes, the classifier sees exactly one row: the three
   * codes (each a valid index into its encoder's classes), the price and the
   * expected wear frequency. Its answer is returned, and an exception it
   * raises escapes the handler as a 500.
   */
  lemma FeatureRowShape(server: Server, req: PredictRequest)
    requires server.model.Some? && server.leItem.Some? && server.leMaterial.Some? && server.leBrand.Some?
    requires EncodeLabel(server.leItem.value, req.category, "category").Success?
    requires EncodeLabel(server.leMaterial.value, req.material, "material").Success?
    requires EncodeLabel(server.leBrand.value, req.brand, "brand").Success?
    ensures var item := EncodeLabel(server.leItem.value, req.category, "category").value;
      var material := EncodeLabel(server.leMaterial.value, req.material, "material").value;
      var brand := EncodeLabel(server.leBrand.value, req.brand, "brand").value;
      var row := [item as real, material as real, brand as real, req.price, req.expectedWearFrequency];
      var model := server.model.value;
      item < |server.leItem.value.classes| && material < |server.leMaterial.value.classes| &&
      brand < |server.leBrand.value.classes| &&
      (Classify(model, [row]).Success? ==>
        Predict(server, req) == Prediction(model.predict([row]).value, Classify(model, [row]).value.probability)) &&
      (Classify(model, [row]).Failure? ==> Predict(server, req) == InternalError)
  {
  }

  /** An absent encoder is not a client error: the request fails with status 500. */
  lemma MissingEncoderIsServerError(server: Server, req: PredictRequest)
    requires server.model.Some? && server.leItem.None?
    ensures Predict(server, req) == InternalError
  {
  }

  /** A request that names each field by its exact class gets those classes' codes. */
  lemma ExactRequest(server: Server, req: PredictRequest, i: nat, m: nat, b: nat)
    requires server.model.Some? && server.leItem.Some? && server.leMaterial.Some? && server.leBrand.Some?
    requires Fitted(server.leItem.value) && Fitted(server.leMaterial.value) && Fitted(server.leBrand.value)
    requires i < |server.leItem.value.classes| && req.category == server.leItem.value.classes[i]
    requires m < |server.leMaterial.value.classes| && req.material == server.leMaterial.value.classes[m]
    requires b < |server.leBrand.value.classes| && req.brand == server.leBrand.value.classes[b]
    ensures Features(server, req) == Success([i as real, m as real, b as real, req.price, req.expectedWearFrequency])
  {
    ExactMatchWins(server.leItem.value, i, "category");
    ExactMatchWins(server.leMaterial.value, m, "material");
    ExactMatchWins(server.leBrand.value, b, "brand");
  }
}

=== FILE: flask.dfy ===
/**
 * The Flask server's `/predict` handler: the model-absent check, the price,
 * the label fields in a fixed order, the brand chosen from the request or
 * from the brand-type table, and the feature row handed to the classifier.
 * Every exception inside the handler becomes a 400 response carrying its text.
 */
module FlaskServer {
  import opened Wrappers
  import opened Labels
  import opened Classifiers
  import opened Grouping
  import opened BrandBuckets

  /** `data.get("price", 0)` before `float(...)`: absent, a number, or a value float() rejects with a message. */
  datatype PriceArg = Absent | Given(value: real) | Unconvertible(message: string)

  /** The JSON body; each label field may be missing. */
  datatype PredictRequest = PredictRequest(
    category: Option<string>, material: Option<string>, brand: Option<string>,
    brandType: Option<string>, price: PriceArg)

  /** What start-up loaded: the artefacts (each absent when it could not be loaded) and the bucket table. */
  datatype Server = Server(
    model: Option<Classifier>,
    leItem: Option<LabelEncoder>, leMaterial: Option<LabelEncoder>, leBrand: Option<LabelEncoder>,
    buckets: map<BrandType, seq<string>>)

  datatype Response =
    | Prediction(prediction: seq<int>, probability: Option<seq<seq<real>>>, chosenBrand: string)
    | Error(status: int, error: string)

  /** `BRAND_TYPE_BUCKETS`: the empty table when the price table is missing, otherwise the one built from it. */
  function StartupBuckets(priceTable: Option<seq<Row>>): map<BrandType, seq<string>> {
    if priceTable.None? then map[] else Buckets(priceTable.value)
  }

  /** The text of the exception `list(encoder.classes_)` raises on an absent encoder. */
  const NoClasses := "'NoneType' object has no attribute 'classes_'"

  /** The text of the exception `normalize_label(value)` raises on a missing value. */
  const NoLower := "'NoneType' object has no attribute 'lower'"

  /**
   * `encode_label(encoder, value, name)` with the encoder and the value possibly
   * absent: the encoder is touched first, a missing value then fails in
   * `normalize_label`, and an unknown label raises the error naming the field.
   */
  function EncodeField(enc: Option<LabelEncoder>, value: Option<string>, name: string): (r: Result<nat, string>)
    ensures r.Success? ==> enc.Some? && r.value < |enc.value.classes|
  {
    if enc.None? then Failure(NoClasses)
    else if value.None? then Failure(NoLower)
    else
      match EncodeLabel(enc.value, value.value, name)
      case Success(code) => Success(code)
      case Failure(err) => Failure(Message(err))
  }

  /** `brand if brand else choose_brand_for_type(brand_type)`. */
  function ChosenBrand(server: Server, req: PredictRequest): Option<string> {
    if req.brand.Some? && req.brand.value != "" then req.brand
    else ChooseBrandForType(server.buckets, req.brandType)
  }

  /** `float(data.get("price", 0))`. */
  function PriceOf(p: PriceArg): Result<real, string> {
    match p
    case Absent => Success(0.0)
    case Given(v) => Success(v)
    case Unconvertible(m) => Failure(m)
  }

  /** The body of the handler's `try`: the price, the labels, the brand, then the classifier. */
  function Respond(server: Server, model: Classifier, req: PredictRequest): Response {
    match PriceOf(req.price)
    case Failure(m) => Error(400, m)
    case Success(price) =>
      match EncodeField(server.leItem, req.category, "category")
      case Failure(m) => Error(400, m)
      case Success(item) =>
        match EncodeField(server.leMaterial, req.material, "material")
        case Failure(m) => Error(400, m)
        case Success(material) =>
          var chosen := ChosenBrand(server, req);
          match EncodeField(server.leBrand, chosen, "brand")
          case Failure(m) => Error(400, m)
          case Success(brand) =>
            match Classify(model, [[item as real, material as real, brand as real, price]])
            case Failure(m) => Error(400, m)
            case Success(out) => Prediction(out.prediction, out.probability, chosen.value)
  }

  /** `predict`: refuse without a model, otherwise answer the request. */
  function Predict(server: Server, req: PredictRequest): (r: Response)
    ensures server.model.None? ==> r == Error(500, "Model not loaded")
    ensures r.Error? && server.model.Some? ==> r.status == 400
    ensures r.Prediction? ==> ChosenBrand(server, req) == Some(r.chosenBrand)
  {
    if server.model.None? then Error(500, "Model not loaded")
    else Respond(server, server.model.value, req)
  }

  /** A missing model is reported before the price or any field is looked at. */
  lemma ModelCheckedFirst(server: Server, req: PredictRequest, other: PredictRequest)
    requires server.model.None?
    ensures Predict(server, req) == Predict(server, other) == Error(500, "Model not loaded")
  {
  }

  /** A price float() rejects is reported before any label. */
  lemma PriceCheckedSecond(server: Server, req: PredictRequest)
    requires server.model.Some? && req.price.Unconvertible?
    ensures Predict(server, req) == Error(400, req.price.message)
  {
  }

  /** A missing price is a price of zero. */
  lemma MissingPriceIsZero(server: Server, req: PredictRequest)
    requires req.price.Absent?
    ensures Predict(server, req) == Predict(server, req.(price := Given(0.0)))
  {
  }

  /** An unknown category is the error reported, whatever the material, brand and price. */
  lemma CategoryReportedFirst(server: Server, req: PredictRequest)
    requires server.model.Some? && !req.price.Unconvertible?
    requires server.leItem.Some? && req.category.Some?
    requires EncodeLabel(server.leItem.value, req.category.value, "category").Failure?
    ensures Predict(server, req) == Error(400, Message(UnknownLabel("category", req.category.value)))
  {
  }

  /** With the category known, an unknown material is reported before the brand is chosen. */
  lemma MaterialReportedSecond(server: Server, req: PredictRequest)
    requires server.model.Some? && !req.price.Unconvertible?
    requires EncodeField(server.leItem, req.category, "category").Success?
    requires server.leMaterial.Some? && req.material.Some?
    requires EncodeLabel(server.leMaterial.value, req.material.value, "material").Failure?
    ensures Predict(server, req) == Error(400, Message(UnknownLabel("material", req.material.value)))
  {
  }

  /** An absent encoder is reported as a client error, unlike in the FastAPI server. */
  lemma MissingEncoderIsClientError(server: Server, req: PredictRequest)
    requires server.model.Some? && !req.price.Unconvertible? && server.leItem.None?
    ensures Predict(server, req) == Error(400, NoClasses)
  {
  }

  /** A non-empty explicit brand is used as given, and the brand type is then ignored. */
  lemma ExplicitBrandWins(server: Server, req: PredictRequest, brandType: Option<string>)
    requires req.brand.Some? && req.brand.value != ""
    ensures Predict(server, req) == Predict(server, req.(brandType := brandType))
    ensures Predict(server, req).Prediction? ==> Predict(server, req).chosenBrand == req.brand.value
  {
  }

  /**
   * With no brand and no usable brand type there is no brand to encode: the
   * request fails in `normalize_label` with a 400 error.
   */
  lemma NoBrandChosen(server: Server, req: PredictRequest)
    requires server.model.Some? && !req.price.Unconvertible?
    requires EncodeField(server.leItem, req.category, "category").Success?
    requires EncodeField(server.leMaterial, req.material, "material").Success?
    requires server.leBrand.Some?
    requires !(req.brand.Some? && req.brand.value != "")
    requires ChooseBrandForType(server.buckets, req.brandType).None?
    ensures Predict(server, req) == Error(400, NoLower)
  {
  }

  /**
   * A request naming a brand type but no brand, against the table built from
   * a price table with at least one contributing row, gets a brand that the
   * price table names, except luxury when the table has a single brand; that
   * request fails with the `normalize_label` error.
   */
  lemma BrandTypeRequest(server: Server, req: PredictRequest, rows: seq<Row>, t: BrandType)
    requires server.buckets == StartupBuckets(Some(rows))
    requires exists i :: 0 <= i < |rows| && Contributes(rows[i])
    requires !(req.brand.Some? && req.brand.value != "") && req.brandType == Some(Name(t))
    ensures ChosenBrand(server, req).None? <==> t == Luxury && |BrandOrder(rows)| == 1
    ensures ChosenBrand(server, req).Some? ==> ChosenBrand(server, req).value in BrandOrder(rows)
  {
    ChooseFromRows(rows, t);
  }

  /**
   * On success the classifier sees one row: the three codes and the price, and
   * no wear frequency. Its answer is returned with the chosen brand, and an
   * exception it raises is caught as a 400 carrying its text.
   */
  lemma FeatureRowShape(server: Server, req: PredictRequest)
    requires server.model.Some? && !req.price.Unconvertible?
    requires EncodeField(server.leItem, req.category, "category").Success?
    requires EncodeField(server.leMaterial, req.material, "material").Success?
    requires EncodeField(server.leBrand, ChosenBrand(server, req), "brand").Success?
    ensures var item := EncodeField(server.leItem, req.category, "category").value;
      var material := EncodeField(server.leMaterial, req.material, "material").value;
      var brand := EncodeField(server.leBrand, ChosenBrand(server, req), "brand").value;
      var price := PriceOf(req.price).value;
      var model := server.model.value;
      var x := [[item as real, material as real, brand as real, price]];
      (Classify(model, x).Success? ==>
        Predict(server, req) == Prediction(model.predict(x).value, Classify(model, x).value.probability, ChosenBrand(server, req).value)) &&
      (Classify(model, x).Failure? ==> Predict(server, req) == Error(400, Classify(model, x).error))
  {
  }
}

=== FILE: grouping.dfy ===
/**
 * First stage of the brand bucketing: reading the price table row by row and
 * grouping the rows by brand, in order of first appearance.
 */
module Grouping {
  import opened Wrappers

  /**
   * The `Item_Price_USD` cell of a row: missing or empty, a number, or text
   * that `float` rejects.
   */
  datatype PriceCell = Blank | Number(value: real) | Malformed

  /** A row of the price table: its `Brand_ID` cell and its `Item_Price_USD` cell. */
  datatype Row = Row(brandId: Option<string>, price: PriceCell)

  /** The brand cell is present and not empty. */
  predicate HasBrand(r: Row) {
    r.brandId.Some? && r.brandId.value != ""
  }

  /** A row is counted when its price parses and it names a brand. */
  predicate Contributes(r: Row) {
    !r.price.Malformed? && HasBrand(r)
  }

  /** `float(cell or 0)`: a blank cell counts as a price of 0. */
  function PriceValue(c: PriceCell): real
    requires !c.Malformed?
  {
    if c.Number? then c.value else 0.0
  }

  /** The brands of the contributing rows, each once, in order of first appearance. */
  function BrandOrder(rows: seq<Row>): seq<string>
    decreases |rows|
  {
    if rows == [] then []
    else
      var prev := BrandOrder(rows[..|rows| - 1]);
      var r := rows[|rows| - 1];
      if Contributes(r) && r.brandId.value !in prev then prev + [r.brandId.value] else prev
  }

  /** The prices of brand `b`'s contributing rows, in row order. */
  function PricesOf(rows: seq<Row>, b: string): seq<real>
    decreases |rows|
  {
    if rows == [] then []
    else
      var r := rows[|rows| - 1];
      PricesOf(rows[..|rows| - 1], b)
        + (if Contributes(r) && r.brandId.value == b then [PriceValue(r.price)] else [])
  }

  /** No brand is listed twice. */
  lemma {:induction false} BrandOrderDistinct(rows: seq<Row>)
    ensures forall i, j :: 0 <= i < j < |BrandOrder(rows)| ==> BrandOrder(rows)[i] != BrandOrder(rows)[j]
    decreases |rows|
  {
    if rows != [] {
      BrandOrderDistinct(rows[..|rows| - 1]);
    }
  }

  /**
   * A brand is listed exactly when some contributing row names it, and exactly
   * when it has at least one price.
   */
  lemma {:induction false} BrandListedIffPriced(rows: seq<Row>, b: string)
    ensures b in BrandOrder(rows) <==> |PricesOf(rows, b)| > 0
    ensures b in BrandOrder(rows) <==>
      exists i :: 0 <= i < |rows| && Contributes(rows[i]) && rows[i].brandId.value == b
    decreases |rows|
  {
    if rows != [] {
      var init := rows[..|rows| - 1];
      BrandListedIffPriced(init, b);
      var r := rows[|rows| - 1];
      if b in BrandOrder(rows) && !(Contributes(r) && r.brandId.value == b) {
        var i :| 0 <= i < |init| && Contributes(init[i]) && init[i].brandId.value == b;
        assert rows[i] == init[i];
      }
      if exists i :: 0 <= i < |rows| && Contributes(rows[i]) && rows[i].brandId.value == b {
        var i :| 0 <= i < |rows| && Contributes(rows[i]) && rows[i].brandId.value == b;
        if i < |init| { assert init[i] == rows[i]; }
      }
    }
  }

  /**
   * First-appearance order: when brand `j` is listed after brand `i`, every
   * contributing row naming brand `j` comes after some contributing row naming
   * brand `i`.
   */
  lemma {:induction false} BrandOrderFirstAppearance(rows: seq<Row>, i: nat, j: nat, k: nat)
    requires i < j < |BrandOrder(rows)| && k < |rows|
    requires Contributes(rows[k]) && rows[k].brandId.value == BrandOrder(rows)[j]
    ensures exists m :: 0 <= m < k && Contributes(rows[m]) && rows[m].brandId.value == BrandOrder(rows)[i]
    decreases |rows|
  {
    var n := |rows| - 1;
    var init := rows[..n];
    var prev := BrandOrder(init);
    assert forall t :: 0 <= t < n ==> init[t] == rows[t];
    assert prev <= BrandOrder(rows);
    if j < |prev| {
      var k' := k;
      if k == n {
        BrandListedIffPriced(init, prev[j]);
        k' :| 0 <= k' < n && Contributes(init[k']) && init[k'].brandId.value == prev[j];
      }
      BrandOrderFirstAppearance(init, i, j, k');
      var m :| 0 <= m < k' && Contributes(init[m]) && init[m].brandId.value == prev[i];
      assert rows[m] == init[m];
    } else {
      var b := BrandOrder(rows)[j];
      assert b !in prev;
      if k < n {
        BrandListedIffPriced(init, b);
        assert false;
      }
      BrandListedIffPriced(init, prev[i]);
      var m :| 0 <= m < n && Contributes(init[m]) && init[m].brandId.value == prev[i];
      assert rows[m] == init[m];
    }
  }

  /** The prices recorded for a brand are exactly those of its contributing rows, blanks as 0. */
  lemma {:induction false} PricesOfRows(rows: seq<Row>, b: string, p: real)
    ensures p in PricesOf(rows, b) <==>
      exists i :: 0 <= i < |rows| && Contributes(rows[i]) && rows[i].brandId.value == b && PriceValue(rows[i].price) == p
    decreases |rows|
  {
    if rows != [] {
      var init := rows[..|rows| - 1];
      PricesOfRows(init, b, p);
      if exists i :: 0 <= i < |rows| && Contributes(rows[i]) && rows[i].brandId.value == b && PriceValue(rows[i].price) == p {
        var i :| 0 <= i < |rows| && Contributes(rows[i]) && rows[i].brandId.value == b && PriceValue(rows[i].price) == p;
        if i < |init| { assert init[i] == rows[i]; }
      }
      if p in PricesOf(init, b) {
        var i :| 0 <= i < |init| && Contributes(init[i]) && init[i].brandId.value == b && PriceValue(init[i].price) == p;
        assert rows[i] == init[i];
      }
    }
  }

  /** The positions of brand `b`'s contributing rows. */
  function RowsOfBrand(rows: seq<Row>, b: string): set<nat> {
    set i: nat | i < |rows| && Contributes(rows[i]) && rows[i].brandId.value == b
  }

  /** The positions of brand `b`'s contributing rows whose price is `p`. */
  function RowsPricedAt(rows: seq<Row>, b: string, p: real): set<nat> {
    set i: nat | i < |rows| && Contributes(rows[i]) && rows[i].brandId.value == b && PriceValue(rows[i].price) == p
  }

  /** Removing the last row removes at most its own position from the brand's rows. */
  lemma RowsOfBrandSnoc(rows: seq<Row>, b: string)
    requires rows != []
    ensures var n := |rows| - 1; var r := rows[n];
      RowsOfBrand(rows, b) == RowsOfBrand(rows[..n], b) + (if Contributes(r) && r.brandId.value == b then {n} else {})
  {
  }

  /** Each contributing row adds one price: a brand has as many prices as contributing rows. */
  lemma {:induction false} PricesOfRowsCount(rows: seq<Row>, b: string)
    ensures |PricesOf(rows, b)| == |RowsOfBrand(rows, b)|
    decreases |rows|
  {
    if rows == [] {
      assert RowsOfBrand(rows, b) == {};
    } else {
      var n := |rows| - 1;
      PricesOfRowsCount(rows[..n], b);
      RowsOfBrandSnoc(rows, b);
      assert n !in RowsOfBrand(rows[..n], b);
    }
  }

  /** Removing the last row removes at most its own position from the rows priced at `p`. */
  lemma RowsPricedAtSnoc(rows: seq<Row>, b: string, p: real)
    requires rows != []
    ensures var n := |rows| - 1; var r := rows[n];
      RowsPricedAt(rows, b, p) ==
        RowsPricedAt(rows[..n], b, p) + (if Contributes(r) && r.brandId.value == b && PriceValue(r.price) == p then {n} else {})
  {
  }

  /** Each price of a brand occurs once for every contributing row that carries it. */
  lemma {:induction false} PriceMultiplicity(rows: seq<Row>, b: string, p: real)
    ensures multiset(PricesOf(rows, b))[p] == |RowsPricedAt(rows, b, p)|
    decreases |rows|
  {
    if rows == [] {
      assert RowsPricedAt(rows, b, p) == {};
    } else {
      var n := |rows| - 1;
      var init := rows[..n];
      PriceMultiplicity(init, b, p);
      RowsPricedAtSnoc(rows, b, p);
      assert n !in RowsPricedAt(init, b, p);
    }
  }

  /** What the grouping loop records per brand: its prices and its row count. */
  datatype Entry = Entry(prices: seq<real>, count: nat)

  /**
   * The grouping loop: `brands.setdefault(bid, ...)`, then append the price and
   * add one to the count. `order` is the insertion order of the dictionary.
   */
  method GroupRows(rows: seq<Row>) returns (order: seq<string>, brands: map<string, Entry>)
    ensures order == BrandOrder(rows)
    ensures forall b :: b in brands <==> b in order
    ensures forall b :: b in brands ==> brands[b].prices == PricesOf(rows, b) && brands[b].count == |brands[b].prices| > 0
  {
    order, brands := [], map[];
    for i := 0 to |rows|
      invariant order == BrandOrder(rows[..i])
      invariant forall b :: b in brands <==> b in order
      invariant forall b :: b in brands ==> brands[b].prices == PricesOf(rows[..i], b) && brands[b].count == |brands[b].prices|
    {
      assert rows[..i + 1][..i] == rows[..i];
      var r := rows[i];
      if r.price.Malformed? {
        continue;
      }
      var price := PriceValue(r.price);
      if !HasBrand(r) {
        continue;
      }
      var bid := r.brandId.value;
      if bid !in brands {
        BrandListedIffPriced(rows[..i], bid);
        brands := brands[bid := Entry([], 0)];
        order := order + [bid];
      }
      var entry := brands[bid];
      brands := brands[bid := Entry(entry.prices + [price], entry.count + 1)];
    }
    assert rows[..|rows|] == rows;
    forall b | b in brands ensures |brands[b].prices| > 0 {
      BrandListedIffPriced(rows, b);
    }
  }
}

=== FILE: labels.dfy ===
/**
 * Label normalisation and the two-tier encoder lookup that both prediction
 * servers use to turn a human-readable label into the integer code a fitted
 * label encoder assigned to it.
 *
 * Characters are ASCII: `str.lower` maps 'A'..'Z' to 'a'..'z' and `str.isalnum`
 * holds of letters and digits.
 */
module Labels {
  import opened Wrappers

  predicate IsUpper(c: char) { 'A' <= c <= 'Z' }

  predicate IsAlnum(c: char) { 'a' <= c <= 'z' || 'A' <= c <= 'Z' || '0' <= c <= '9' }

  predicate IsLowerAlnum(c: char) { 'a' <= c <= 'z' || '0' <= c <= '9' }

  /** `c.lower()` on an ASCII character. */
  function LowerChar(c: char): char {
    if IsUpper(c) then (c as int + 32) as char else c
  }

  /** `s.lower()` on ASCII text. */
  function Lower(s: string): (r: string)
    ensures |r| == |s|
    ensures forall i :: 0 <= i < |s| ==> r[i] == LowerChar(s[i])
  {
    if s == [] then [] else [LowerChar(s[0])] + Lower(s[1..])
  }

  /** The characters of `s` for which `isalnum` holds, in order. */
  function KeepAlnum(s: string): string {
    if s == [] then [] else (if IsAlnum(s[0]) then [s[0]] else []) + KeepAlnum(s[1..])
  }

  /** normalize_label: lower-case, then drop every non-alphanumeric character. */
  function NormalizeLabel(s: string): (r: string)
    ensures forall i :: 0 <= i < |r| ==> IsLowerAlnum(r[i])
    ensures |r| <= |s|
  {
    NormalizeLower(Lower(s));
    KeepAlnum(Lower(s))
  }

  predicate AllLowerAlnum(s: string) {
    forall i :: 0 <= i < |s| ==> IsLowerAlnum(s[i])
  }

  lemma {:induction false} NormalizeLower(t: string)
    requires forall i :: 0 <= i < |t| ==> !IsUpper(t[i])
    ensures AllLowerAlnum(KeepAlnum(t)) && |KeepAlnum(t)| <= |t|
  {
    if t != [] {
      NormalizeLower(t[1..]);
      var rest := KeepAlnum(t[1..]);
      assert KeepAlnum(t) == (if IsAlnum(t[0]) then [t[0]] else []) + rest;
    }
  }

  lemma {:induction false} KeepAlnumFixes(s: string)
    requires AllLowerAlnum(s)
    ensures KeepAlnum(s) == s
  {
    if s != [] {
      KeepAlnumFixes(s[1..]);
      assert s == [s[0]] + s[1..];
    }
  }

  /** A string is its own normal form exactly when it is made of lower-case letters and digits only. */
  lemma NormalizeFixedPoint(s: string)
    ensures NormalizeLabel(s) == s <==> AllLowerAlnum(s)
  {
    if AllLowerAlnum(s) {
      assert Lower(s) == s;
      KeepAlnumFixes(s);
    }
  }

  /** normalize_label is idempotent. */
  lemma NormalizeIdempotent(s: string)
    ensures NormalizeLabel(NormalizeLabel(s)) == NormalizeLabel(s)
  {
    NormalizeFixedPoint(NormalizeLabel(s));
  }

  lemma {:induction false} LowerAppend(a: string, b: string)
    ensures Lower(a + b) == Lower(a) + Lower(b)
  {
    if a != [] {
      assert (a + b)[1..] == a[1..] + b;
      LowerAppend(a[1..], b);
    }
  }

  lemma {:induction false} KeepAlnumAppend(a: string, b: string)
    ensures KeepAlnum(a + b) == KeepAlnum(a) + KeepAlnum(b)
  {
    if a == [] {
      assert a + b == b;
    } else {
      var head := if IsAlnum(a[0]) then [a[0]] else [];
      assert (a + b)[0] == a[0] && (a + b)[1..] == a[1..] + b;
      calc {
        KeepAlnum(a + b);
        head + KeepAlnum(a[1..] + b);
        { KeepAlnumAppend(a[1..], b); }
        head + (KeepAlnum(a[1..]) + KeepAlnum(b));
        (head + KeepAlnum(a[1..])) + KeepAlnum(b);
        KeepAlnum(a) + KeepAlnum(b);
      }
    }
  }

  /** Normalisation works character by character: it distributes over concatenation. */
  lemma NormalizeAppend(a: string, b: string)
    ensures NormalizeLabel(a + b) == NormalizeLabel(a) + NormalizeLabel(b)
  {
    LowerAppend(a, b);
    KeepAlnumAppend(Lower(a), Lower(b));
  }

  /** Normalising one more leading character prepends its lower-case form when it is alphanumeric. */
  lemma NormalizeCons(c: char, s: string)
    ensures NormalizeLabel([c] + s)
         == (if IsAlnum(LowerChar(c)) then [LowerChar(c)] else []) + NormalizeLabel(s)
  {
    NormalizeAppend([c], s);
  }

  // Normal forms of short literal pieces. Each is evaluated in a proof of its own: evaluating
  // a whole example string in one proof is more than the verifier's resource limit allows.
  lemma NormalizeEcoDash() ensures NormalizeLabel("Eco-") == "eco" {}
  lemma NormalizeFrie() ensures NormalizeLabel("Frie") == "frie" {}
  lemma NormalizeNdlySpace() ensures NormalizeLabel("ndly ") == "ndly" {}

  /** Case and punctuation drift do not change the normal form: "Eco-Friendly " normalises to "ecofriendly". */
  lemma NormalizeEcoFriendly(s: string)
    requires s == "Eco-Friendly "
    ensures NormalizeLabel(s) == "ecofriendly"
  {
    EcoFriendlyPieces(s);
    NormalizeEcoDash();
    NormalizeFrie();
    NormalizeNdlySpace();
    NormalizeAppend("Frie", "ndly ");
    NormalizeAppend("Eco-", "Frie" + "ndly ");
    EcoFriendlyNormalPieces();
  }

  /** The example string cut into the pieces above. */
  lemma EcoFriendlyPieces(s: string)
    requires s == "Eco-Friendly "
    ensures s == "Eco-" + ("Frie" + "ndly ")
  {
  }

  /** The normal forms of the pieces join up to "ecofriendly". */
  lemma EcoFriendlyNormalPieces()
    ensures "eco" + ("frie" + "ndly") == "ecofriendly"
  {
  }

  /**
   * A fitted sklearn LabelEncoder, abstracted to its `classes_`: the code of
   * a class is its position in this sequence, which is what `transform` returns.
   */
  datatype LabelEncoder = LabelEncoder(classes: seq<string>)

  /** LabelEncoder.fit keeps each class once. */
  predicate Fitted(e: LabelEncoder) {
    forall i, j :: 0 <= i < j < |e.classes| ==> e.classes[i] != e.classes[j]
  }

  /** `encoder.transform([c])[0]`: the position of `c` among the classes. */
  function Transform(e: LabelEncoder, c: string): (code: nat)
    requires c in e.classes
    ensures code < |e.classes| && e.classes[code] == c
    ensures forall j :: 0 <= j < code ==> e.classes[j] != c
  {
    IndexOf(e.classes, c, 0)
  }

  function IndexOf(classes: seq<string>, c: string, from: nat): (i: nat)
    requires from <= |classes| && c in classes[from..]
    ensures from <= i < |classes| && classes[i] == c
    ensures forall j :: from <= j < i ==> classes[j] != c
    decreases |classes| - from
  {
    if classes[from] == c then from else IndexOf(classes, c, from + 1)
  }

  /** The error encode_label raises for a label that matches no class, even after normalisation. */
  datatype EncodeError = UnknownLabel(name: string, value: string)

  /** The text of the error: `Unknown {name} label: {value}`. */
  function Message(err: EncodeError): (m: string)
    ensures |m| == |err.name| + |err.value| + 16
    ensures m[..8] == "Unknown " && m[|m| - |err.value|..] == err.value
  {
    "Unknown " + err.name + " label: " + err.value
  }

  /** The loop over `classes` looking for the first class whose normal form is `norm`. */
  function FirstNormalMatch(classes: seq<string>, norm: string, from: nat): (r: Option<nat>)
    requires from <= |classes|
    ensures r.Some? ==> from <= r.value < |classes| && NormalizeLabel(classes[r.value]) == norm
    ensures r.Some? ==> forall j :: from <= j < r.value ==> NormalizeLabel(classes[j]) != norm
    ensures r.None? ==> forall j :: from <= j < |classes| ==> NormalizeLabel(classes[j]) != norm
    decreases |classes| - from
  {
    if from == |classes| then None
    else if NormalizeLabel(classes[from]) == norm then Some(from)
    else FirstNormalMatch(classes, norm, from + 1)
  }

  /**
   * encode_label: the exact class's code when `value` is a class; otherwise the
   * code of the first class with the same normal form; otherwise an error naming
   * the field.
   */
  function EncodeLabel(e: LabelEncoder, value: string, name: string): (r: Result<nat, EncodeError>)
    ensures r.Success? ==> r.value < |e.classes|
    ensures value in e.classes ==> r.Success? && e.classes[r.value] == value
    ensures value !in e.classes ==>
      (r.Success? <==> exists i :: 0 <= i < |e.classes| && NormalizeLabel(e.classes[i]) == NormalizeLabel(value))
    ensures value !in e.classes && r.Success? ==>
      NormalizeLabel(e.classes[r.value]) == NormalizeLabel(value) &&
      forall j :: 0 <= j < r.value ==> NormalizeLabel(e.classes[j]) != NormalizeLabel(value)
    ensures r.Failure? ==> r.error == UnknownLabel(name, value)
  {
    if value in e.classes then Success(Transform(e, value))
    else
      match FirstNormalMatch(e.classes, NormalizeLabel(value), 0)
      case Some(i) => Success(Transform(e, e.classes[i]))
      case None => Failure(UnknownLabel(name, value))
  }

  /** An exact match wins even when an earlier class has the same normal form. */
  lemma ExactMatchWins(e: LabelEncoder, k: nat, name: string)
    requires Fitted(e) && k < |e.classes|
    ensures EncodeLabel(e, e.classes[k], name) == Success(k)
  {
  }

  /** Encoding a fitted class's own string returns the code fitting assigned to it, for every class. */
  lemma EncodeOwnClasses(e: LabelEncoder, name: string)
    requires Fitted(e)
    ensures forall k :: 0 <= k < |e.classes| ==> EncodeLabel(e, e.classes[k], name) == Success(k)
  {
    forall k | 0 <= k < |e.classes| ensures EncodeLabel(e, e.classes[k], name) == Success(k) {
      ExactMatchWins(e, k, name);
    }
  }

  /** Two inputs that are not classes but share a normal form encode identically. */
  lemma EncodeDependsOnNormalForm(e: LabelEncoder, v: string, w: string, name: string)
    requires v !in e.classes && w !in e.classes
    requires NormalizeLabel(v) == NormalizeLabel(w)
    ensures EncodeLabel(e, v, name).Success? == EncodeLabel(e, w, name).Success?
    ensures EncodeLabel(e, v, name).Success? ==> EncodeLabel(e, v, name).value == EncodeLabel(e, w, name).value
  {
  }

  // Normal forms of the example classes' and value's pieces, one proof each as above.
  lemma NormalizeCotton() ensures NormalizeLabel("cotton") == "cotton" {}
  lemma NormalizeUnob() ensures NormalizeLabel("Unob") == "unob" {}
  lemma NormalizeTain() ensures NormalizeLabel("tain") == "tain" {}
  lemma NormalizeIum() ensures NormalizeLabel("ium") == "ium" {}
  lemma NormalizeEcof() ensures NormalizeLabel("ecof") == "ecof" {}
  lemma NormalizeRiendly() ensures NormalizeLabel("riendly") == "riendly" {}

  lemma NormalizeEcofriendlyClass(c: string)
    requires c == "ecofriendly"
    ensures NormalizeLabel(c) == c
  {
    var a, b := "ecof", "riendly";
    NormalizeEcof();
    NormalizeRiendly();
    assert c == a + b;
    NormalizeAppend(a, b);
  }

  /** "Eco-Friendly " is no class of ["cotton", "ecofriendly"], but resolves to the code of "ecofriendly". */
  lemma EncodeEcoFriendlyExample(e: LabelEncoder, v: string)
    requires e == LabelEncoder(["cotton", "ecofriendly"]) && v == "Eco-Friendly "
    ensures EncodeLabel(e, v, "material") == Success(1)
  {
    NormalizeEcoFriendly(v);
    NormalizeCotton();
    NormalizeEcofriendlyClass(e.classes[1]);
    assert v != e.classes[0] && v != e.classes[1];
    EncodeSecondClass(e, v, "material");
  }

  /** A value that is no class, with a normal form matching the second class and not the first, gets code 1. */
  lemma EncodeSecondClass(e: LabelEncoder, v: string, name: string)
    requires |e.classes| == 2 && v != e.classes[0] && v != e.classes[1]
    requires NormalizeLabel(e.classes[0]) != NormalizeLabel(v) && NormalizeLabel(e.classes[1]) == NormalizeLabel(v)
    ensures EncodeLabel(e, v, name) == Success(1)
  {
  }

  lemma NormalizeUnobtainium(w: string)
    requires w == "Unobtainium"
    ensures NormalizeLabel(w) == "unobtainium"
  {
    var a, b, c := "Unob", "tain", "ium";
    NormalizeUnob();
    NormalizeTain();
    NormalizeIum();
    assert w == a + (b + c);
    NormalizeAppend(b, c);
    NormalizeAppend(a, b + c);
  }

  /** "Unobtainium" matches no class of ["cotton", "ecofriendly"] and is reported as an unknown material. */
  lemma EncodeUnknownExample(e: LabelEncoder, w: string)
    requires e == LabelEncoder(["cotton", "ecofriendly"]) && w == "Unobtainium"
    ensures EncodeLabel(e, w, "material") == Failure(UnknownLabel("material", w))
  {
    NormalizeUnobtainium(w);
    NormalizeCotton();
    NormalizeEcofriendlyClass(e.classes[1]);
  }
}

=== FILE: ordering.dfy ===
/**
 * The orderings the brand bucketing relies on: Python's stable `list.sort`
 * under the two keys the bucketing uses, and `statistics.median` over exact
 * reals.
 */
module Ordering {

  /** One entry of the brand list: a brand, the median of its prices and how many rows it had. */
  datatype BrandStat = BrandStat(bid: string, median: real, count: nat)

  /** The two sort keys of the bucketing. */
  datatype SortKey =
    | ByMedian            // the median alone, ascending
    | ByCountThenMedian   // the count descending, then the median ascending

  /** `a`'s key is strictly smaller than `b`'s, so a stable sort puts `a` first. */
  predicate Precedes(k: SortKey, a: BrandStat, b: BrandStat) {
    match k
    case ByMedian => a.median < b.median
    case ByCountThenMedian => a.count > b.count || (a.count == b.count && a.median < b.median)
  }

  /** `a` and `b` have equal keys: a stable sort keeps them in their input order. */
  predicate Tied(k: SortKey, a: BrandStat, b: BrandStat) {
    !Precedes(k, a, b) && !Precedes(k, b, a)
  }

  predicate SortedBy(k: SortKey, s: seq<BrandStat>) {
    forall i, j :: 0 <= i < j < |s| ==> !Precedes(k, s[j], s[i])
  }

  /** The elements of `s` whose key equals `x`'s, in their order in `s`. */
  function Ties(k: SortKey, s: seq<BrandStat>, x: BrandStat): seq<BrandStat> {
    if s == [] then [] else (if Tied(k, s[0], x) then [s[0]] else []) + Ties(k, s[1..], x)
  }

  lemma PrecedesTiedPrecedes(k: SortKey, a: BrandStat, b: BrandStat, c: BrandStat)
    requires Precedes(k, a, b) && Tied(k, b, c)
    ensures Precedes(k, a, c)
  {
  }

  lemma NotPrecedesTransitive(k: SortKey, a: BrandStat, b: BrandStat, c: BrandStat)
    requires !Precedes(k, a, b) && !Precedes(k, b, c)
    ensures !Precedes(k, a, c)
  {
  }

  /** Inserts `x` before the first element whose key is not smaller, so `x` goes before its ties. */
  function Insert(k: SortKey, x: BrandStat, s: seq<BrandStat>): (r: seq<BrandStat>)
    ensures multiset(r) == multiset(s) + multiset{x}
  {
    if s == [] then [x]
    else if Precedes(k, s[0], x) then
      assert s == [s[0]] + s[1..];
      [s[0]] + Insert(k, x, s[1..])
    else
      assert s == [s[0]] + s[1..];
      [x] + s
  }

  lemma {:induction false} InsertSorted(k: SortKey, x: BrandStat, s: seq<BrandStat>)
    requires SortedBy(k, s)
    ensures SortedBy(k, Insert(k, x, s))
  {
    if s != [] {
      if Precedes(k, s[0], x) {
        InsertSorted(k, x, s[1..]);
        InsertAfterHead(k, x, s, Insert(k, x, s[1..]));
      } else {
        InsertAtHead(k, x, s);
      }
    }
  }

  lemma InsertAfterHead(k: SortKey, x: BrandStat, s: seq<BrandStat>, rest: seq<BrandStat>)
    requires s != [] && SortedBy(k, s) && Precedes(k, s[0], x)
    requires SortedBy(k, rest) && multiset(rest) == multiset(s[1..]) + multiset{x}
    ensures SortedBy(k, [s[0]] + rest)
  {
    forall j | 0 <= j < |rest| ensures !Precedes(k, rest[j], s[0]) {
      var y := rest[j];
      assert y in multiset(rest);
      if y != x {
        assert y in multiset(s[1..]);
        var m :| 0 <= m < |s[1..]| && s[1..][m] == y;
        assert s[m + 1] == y;
      }
    }
    var r := [s[0]] + rest;
    forall i, j | 0 <= i < j < |r| ensures !Precedes(k, r[j], r[i]) {
      assert r[j] == rest[j - 1];
      if i > 0 { assert r[i] == rest[i - 1]; }
    }
  }

  lemma InsertAtHead(k: SortKey, x: BrandStat, s: seq<BrandStat>)
    requires s != [] && SortedBy(k, s) && !Precedes(k, s[0], x)
    ensures SortedBy(k, [x] + s)
  {
    var r := [x] + s;
    forall i, j | 0 <= i < j < |r| ensures !Precedes(k, r[j], r[i]) {
      assert r[j] == s[j - 1];
      if i == 0 {
        if j > 1 { NotPrecedesTransitive(k, s[j - 1], s[0], x); }
      } else {
        assert r[i] == s[i - 1];
      }
    }
  }

  /** Python's stable `list.sort` under key `k`: insertion of each element into the sorted rest. */
  function StableSort(k: SortKey, s: seq<BrandStat>): (r: seq<BrandStat>)
    ensures multiset(r) == multiset(s)
    ensures |r| == |s|
  {
    if s == [] then []
    else
      var rest := StableSort(k, s[1..]);
      assert s == [s[0]] + s[1..];
      assert |multiset(Insert(k, s[0], rest))| == |s|;
      Insert(k, s[0], rest)
  }

  /** The sort's result is in order under its key. */
  lemma {:induction false} StableSortSorted(k: SortKey, s: seq<BrandStat>)
    ensures SortedBy(k, StableSort(k, s))
  {
    if s != [] {
      StableSortSorted(k, s[1..]);
      InsertSorted(k, s[0], StableSort(k, s[1..]));
    }
  }

  /** Sorting a list that is already in order leaves it unchanged. */
  lemma {:induction false} StableSortOfSorted(k: SortKey, s: seq<BrandStat>)
    requires SortedBy(k, s)
    ensures StableSort(k, s) == s
  {
    if s != [] {
      assert SortedBy(k, s[1..]) by {
        forall i, j | 0 <= i < j < |s[1..]| ensures !Precedes(k, s[1..][j], s[1..][i]) {
          assert s[1..][j] == s[j + 1] && s[1..][i] == s[i + 1];
        }
      }
      StableSortOfSorted(k, s[1..]);
      if |s| > 1 {
        assert !Precedes(k, s[1], s[0]);
        assert s[1..][0] == s[1];
      }
      assert s == [s[0]] + s[1..];
    }
  }

  lemma {:induction false} InsertTies(k: SortKey, x: BrandStat, s: seq<BrandStat>, y: BrandStat)
    ensures Ties(k, Insert(k, x, s), y) == (if Tied(k, x, y) then [x] else []) + Ties(k, s, y)
  {
    if s == [] {
      assert Ties(k, [x], y) == (if Tied(k, x, y) then [x] else []) + Ties(k, [], y);
    } else if Precedes(k, s[0], x) {
      InsertTies(k, x, s[1..], y);
      InsertTiesPastHead(k, x, s, y);
    } else {
      var r := [x] + s;
      assert r[0] == x && r[1..] == s;
    }
  }

  /** The step of InsertTies where `x` goes past the head of `s`. */
  lemma InsertTiesPastHead(k: SortKey, x: BrandStat, s: seq<BrandStat>, y: BrandStat)
    requires s != [] && Precedes(k, s[0], x)
    requires Ties(k, Insert(k, x, s[1..]), y) == (if Tied(k, x, y) then [x] else []) + Ties(k, s[1..], y)
    ensures Ties(k, Insert(k, x, s), y) == (if Tied(k, x, y) then [x] else []) + Ties(k, s, y)
  {
    var hx := if Tied(k, x, y) then [x] else [];
    var h0 := if Tied(k, s[0], y) then [s[0]] else [];
    var rest := Insert(k, x, s[1..]);
    var r := [s[0]] + rest;
    assert Insert(k, x, s) == r;
    assert r[0] == s[0] && r[1..] == rest;
    assert Ties(k, r, y) == h0 + Ties(k, rest, y);
    assert Ties(k, s, y) == h0 + Ties(k, s[1..], y);
    var tail := Ties(k, s[1..], y);
    if Tied(k, x, y) {
      PrecedesTiedPrecedes(k, s[0], x, y);
      assert h0 == [];
      assert Ties(k, r, y) == Ties(k, rest, y) == hx + tail;
      assert Ties(k, s, y) == tail;
    } else {
      assert hx == [];
      assert Ties(k, rest, y) == tail;
      assert Ties(k, r, y) == h0 + tail == Ties(k, s, y);
    }
  }

  /** Stability: the elements that share a key come out in the order they went in. */
  lemma {:induction false} StableSortKeepsTies(k: SortKey, s: seq<BrandStat>, y: BrandStat)
    ensures Ties(k, StableSort(k, s), y) == Ties(k, s, y)
  {
    if s != [] {
      StableSortKeepsTies(k, s[1..], y);
      InsertTies(k, s[0], StableSort(k, s[1..]), y);
    }
  }

  /** The brand ids of a brand list, in order. */
  function Bids(s: seq<BrandStat>): (r: seq<string>)
    ensures |r| == |s| && forall i :: 0 <= i < |s| ==> r[i] == s[i].bid
  {
    if s == [] then [] else [s[0].bid] + Bids(s[1..])
  }

  predicate Ascending(s: seq<real>) {
    forall i, j :: 0 <= i < j < |s| ==> s[i] <= s[j]
  }

  function InsertReal(x: real, s: seq<real>): (r: seq<real>)
    ensures multiset(r) == multiset(s) + multiset{x}
  {
    if s == [] then [x]
    else if s[0] < x then
      assert s == [s[0]] + s[1..];
      [s[0]] + InsertReal(x, s[1..])
    else [x] + s
  }

  /** Inserting into an ascending sequence keeps it ascending. */
  lemma {:induction false} InsertRealAscending(x: real, s: seq<real>)
    requires Ascending(s)
    ensures Ascending(InsertReal(x, s))
  {
    if s == [] {
    } else if s[0] < x {
      InsertRealAscending(x, s[1..]);
      InsertRealAfterHead(x, s, InsertReal(x, s[1..]));
    } else {
      var r := [x] + s;
      forall i, j | 0 <= i < j < |r| ensures r[i] <= r[j] {
        assert r[j] == s[j - 1];
        if i > 0 { assert r[i] == s[i - 1]; }
      }
    }
  }

  lemma InsertRealAfterHead(x: real, s: seq<real>, rest: seq<real>)
    requires s != [] && Ascending(s) && s[0] < x
    requires Ascending(rest) && multiset(rest) == multiset(s[1..]) + multiset{x}
    ensures Ascending([s[0]] + rest)
  {
    forall j | 0 <= j < |rest| ensures s[0] <= rest[j] {
      var y := rest[j];
      assert y in multiset(rest);
      if y != x {
        assert y in multiset(s[1..]);
        var m :| 0 <= m < |s[1..]| && s[1..][m] == y;
        assert s[m + 1] == y;
      }
    }
    var r := [s[0]] + rest;
    forall i, j | 0 <= i < j < |r| ensures r[i] <= r[j] {
      assert r[j] == rest[j - 1];
      if i > 0 { assert r[i] == rest[i - 1]; }
    }
  }

  /** `sorted(data)`, as `statistics.median` computes it. */
  function SortReals(s: seq<real>): (r: seq<real>)
    ensures multiset(r) == multiset(s)
    ensures |r| == |s|
  {
    if s == [] then []
    else
      assert s == [s[0]] + s[1..];
      InsertReal(s[0], SortReals(s[1..]))
  }

  /** `sorted` returns its data in ascending order. */
  lemma {:induction false} SortRealsAscending(s: seq<real>)
    ensures Ascending(SortReals(s))
  {
    if s != [] {
      SortRealsAscending(s[1..]);
      InsertRealAscending(s[0], SortReals(s[1..]));
    }
  }

  /** Two ascending sequences with the same elements are equal. */
  lemma {:induction false} AscendingUnique(s: seq<real>, t: seq<real>)
    requires Ascending(s) && Ascending(t) && multiset(s) == multiset(t)
    ensures s == t
  {
    assert |t| == |s| by { assert |multiset(s)| == |multiset(t)|; }
    if s != [] {
      assert s[0] == t[0] by {
        assert t[0] in multiset(s);
        var i :| 0 <= i < |s| && s[i] == t[0];
        assert s[0] in multiset(t);
        var j :| 0 <= j < |t| && t[j] == s[0];
        assert s[0] <= s[i] && t[0] <= t[j];
      }
      var s', t' := s[1..], t[1..];
      assert Ascending(s') && Ascending(t');
      assert s == [s[0]] + s' && t == [t[0]] + t';
      calc {
        multiset(s');
        multiset(s) - multiset{s[0]};
        multiset(t) - multiset{t[0]};
        multiset(t');
      }
      AscendingUnique(s', t');
    }
  }

  /**
   * `statistics.median`: the middle element of the sorted data, or the mean of
   * the two middle elements when there is an even number of them.
   */
  function Median(s: seq<real>): real
    requires |s| > 0
  {
    var t := SortReals(s);
    var n := |t|;
    if n % 2 == 1 then t[n / 2] else (t[(n - 1) / 2] + t[n / 2]) / 2.0
  }

  /** The median lies between two of the prices: it is never below all of them nor above all of them. */
  lemma MedianBetween(s: seq<real>)
    requires |s| > 0
    ensures exists i :: 0 <= i < |s| && s[i] <= Median(s)
    ensures exists j :: 0 <= j < |s| && Median(s) <= s[j]
  {
    var t := SortReals(s);
    var n := |t|;
    var lo, hi := t[(n - 1) / 2], t[n / 2];
    SortRealsAscending(s);
    assert lo <= hi;
    assert lo in multiset(s) && hi in multiset(s);
  }

  /** The median depends only on the prices, not on the order of the rows they came from. */
  lemma MedianIgnoresOrder(s: seq<real>, t: seq<real>)
    requires |s| > 0 && multiset(s) == multiset(t)
    ensures |t| > 0 && Median(s) == Median(t)
  {
    assert |t| == |s| by { assert |multiset(s)| == |multiset(t)|; }
    SortRealsAscending(s);
    SortRealsAscending(t);
    AscendingUnique(SortReals(s), SortReals(t));
  }

  /** The median of a single price is that price. */
  lemma MedianOfOne(x: real)
    ensures Median([x]) == x
  {
  }

  /** The median of equal prices is that price. */
  lemma MedianOfConstant(s: seq<real>, x: real)
    requires |s| > 0 && forall i :: 0 <= i < |s| ==> s[i] == x
    ensures Median(s) == x
  {
    var t := SortReals(s);
    forall k | 0 <= k < |t| ensures t[k] == x {
      assert t[k] in multiset(s);
    }
  }
}

=== FILE: quartiles.dfy ===
/**
 * The quartile partition of the median-sorted brand list: brand `i` of `n`
 * goes to quartile `min(4, i / qsize + 1)` with `qsize = max(1, n / 4)`.
 */
module Quartiles {

  /** `max(1, n // 4)`. */
  function QuartileSize(n: nat): (qsize: nat)
    ensures qsize >= 1
    ensures n >= 4 ==> qsize == n / 4
  {
    if n / 4 > 1 then n / 4 else 1
  }

  /** `min(4, (i // qsize) + 1)`: the quartile of position `i` in a list of `n` brands. */
  function QuartileOf(i: nat, n: nat): (q: int)
    ensures 1 <= q <= 4
  {
    var d := i / QuartileSize(n) + 1;
    if d < 4 then d else 4
  }

  /** Positions further down the sorted list never fall in a lower quartile. */
  lemma QuartileMonotone(i: nat, j: nat, n: nat)
    requires i <= j < n
    ensures QuartileOf(i, n) <= QuartileOf(j, n)
  {
    var qi, qj := QuartileOf(i, n), QuartileOf(j, n);
    QuartileBounds(i, n, qi);
    QuartileBounds(j, n, qj);
    LoHiMonotone(qj, qi, n);
    assert Lo(qi, n) <= i <= j < Hi(qj, n);
  }

  lemma MulMonotone(a: nat, b: nat, z: nat)
    requires a <= b
    ensures a * z <= b * z
  {
  }

  /** `min(n, k * qsize)` for k in 0..3, written out per k so that it stays linear. */
  function Boundary(k: int, n: nat): nat
    requires 0 <= k <= 3
  {
    var z := QuartileSize(n);
    var p := if k == 0 then 0 else if k == 1 then z else if k == 2 then 2 * z else 3 * z;
    if p < n then p else n
  }

  /** First position of quartile `q` (1..4) in a list of `n`. */
  function Lo(q: int, n: nat): nat
    requires 1 <= q <= 4
  {
    Boundary(q - 1, n)
  }

  /** One past the last position of quartile `q`; the last quartile runs to the end. */
  function Hi(q: int, n: nat): nat
    requires 1 <= q <= 4
  {
    if q == 4 then n else Boundary(q, n)
  }

  /** Quartile `q` holds exactly the positions from Lo(q) up to Hi(q). */
  lemma QuartileBounds(i: nat, n: nat, q: int)
    requires i < n && 1 <= q <= 4
    ensures QuartileOf(i, n) == q <==> Lo(q, n) <= i < Hi(q, n)
  {
    var z := QuartileSize(n);
    var d := i / z;
    assert d * z <= i < d * z + z;
    if d >= 3 {
      assert 3 * z <= d * z by { MulMonotone(3, d, z); }
    }
    if d <= 2 {
      assert d * z <= 2 * z by { MulMonotone(d, 2, z); }
    }
    if d == 0 {
      assert i < z;
    } else if d == 1 {
      assert z <= i < 2 * z;
    } else if d == 2 {
      assert 2 * z <= i < 3 * z;
    }
  }

  /** `quartile_map[q]` as the partition loop leaves it: the slice of the sorted list between Lo(q) and Hi(q). */
  function Quartile<T>(s: seq<T>, q: int): seq<T>
    requires 1 <= q <= 4
  {
    LoHiOrdered(q, |s|);
    s[Lo(q, |s|)..Hi(q, |s|)]
  }

  lemma LoHiOrdered(q: int, n: nat)
    requires 1 <= q <= 4
    ensures Lo(q, n) <= Hi(q, n) <= n
    ensures q < 4 ==> Hi(q, n) == Lo(q + 1, n)
  {
  }

  /** A later quartile starts no earlier than an earlier one ends. */
  lemma LoHiMonotone(p: int, q: int, n: nat)
    requires 1 <= p <= 4 && 1 <= q <= 4
    ensures p < q ==> Hi(p, n) <= Lo(q, n)
  {
    var z := QuartileSize(n);
    if p < q {
      MulMonotone(p, q - 1, z);
    }
  }

  /** The four quartiles, in order, are the sorted list again: no brand is lost or repeated. */
  lemma QuartilesCover<T>(s: seq<T>)
    ensures Quartile(s, 1) + Quartile(s, 2) + Quartile(s, 3) + Quartile(s, 4) == s
    ensures |Quartile(s, 1)| + |Quartile(s, 2)| + |Quartile(s, 3)| + |Quartile(s, 4)| == |s|
    ensures multiset(Quartile(s, 1)) + multiset(Quartile(s, 2)) + multiset(Quartile(s, 3)) + multiset(Quartile(s, 4))
         == multiset(s)
  {
    var n := |s|;
    LoHiOrdered(1, n);
    LoHiOrdered(2, n);
    LoHiOrdered(3, n);
    LoHiOrdered(4, n);
    assert Lo(1, n) == 0;
    var a, b, c := Hi(1, n), Hi(2, n), Hi(3, n);
    assert s[0..a] + s[a..b] == s[..b];
    assert s[..b] + s[b..c] == s[..c];
    assert s[..c] + s[c..n] == s;
    calc {
      multiset(s);
      multiset(s[..c] + s[c..n]);
      multiset(s[..c]) + multiset(s[c..n]);
      { assert s[..c] == s[..b] + s[b..c]; }
      multiset(s[..b]) + multiset(s[b..c]) + multiset(s[c..n]);
      { assert s[..b] == s[0..a] + s[a..b]; }
      multiset(s[0..a]) + multiset(s[a..b]) + multiset(s[b..c]) + multiset(s[c..n]);
    }
  }

  /**
   * With four brands or more the first three quartiles hold `n // 4` brands each
   * and the last one the rest; with fewer, quartile `q` holds just brand `q - 1`
   * when there is one.
   */
  lemma QuartileSizes<T>(s: seq<T>, q: int)
    requires 1 <= q <= 4
    ensures |s| >= 4 && q < 4 ==> |Quartile(s, q)| == |s| / 4
    ensures |s| >= 4 && q == 4 ==> |Quartile(s, q)| == |s| - 3 * (|s| / 4)
    ensures |s| < 4 && q <= |s| ==> Quartile(s, q) == [s[q - 1]]
    ensures |s| < 4 && q > |s| ==> Quartile(s, q) == []
  {
  }

  /** Every brand of an earlier quartile sits before every brand of a later one in the sorted list. */
  lemma QuartilesContiguous(n: nat, q: int, r: int, i: nat, j: nat)
    requires 1 <= q < r <= 4 && i < n && j < n
    requires QuartileOf(i, n) == q && QuartileOf(j, n) == r
    ensures i < j
  {
    if j <= i {
      QuartileMonotone(j, i, n);
    }
  }

  function Clip(x: nat, i: nat): nat {
    if x < i then x else i
  }

  /** What the partition loop has put in quartile `p` after the first `i` positions. */
  function QuartilePrefix<T>(s: seq<T>, p: int, i: nat): seq<T>
    requires 1 <= p <= 4 && i <= |s|
  {
    LoHiOrdered(p, |s|);
    s[Clip(Lo(p, |s|), i)..Clip(Hi(p, |s|), i)]
  }

  lemma QuartilePrefixStep<T>(s: seq<T>, p: int, i: nat)
    requires 1 <= p <= 4 && i < |s|
    ensures QuartilePrefix(s, p, i + 1)
         == if QuartileOf(i, |s|) == p then QuartilePrefix(s, p, i) + [s[i]] else QuartilePrefix(s, p, i)
  {
    QuartileBounds(i, |s|, p);
    LoHiOrdered(p, |s|);
  }

  /**
   * The partition loop: `quartile_map[min(4, i // qsize + 1)].append(...)` for
   * each position `i` of the sorted list.
   */
  method Partition<T>(s: seq<T>) returns (qm: map<int, seq<T>>)
    ensures forall q :: q in qm <==> 1 <= q <= 4
    ensures forall q :: 1 <= q <= 4 ==> qm[q] == Quartile(s, q)
  {
    var n := |s|;
    qm := map[1 := [], 2 := [], 3 := [], 4 := []];
    PartitionStart(s);
    for i := 0 to n
      invariant PartitionedUpTo(s, qm, i)
    {
      var q := QuartileOf(i, n);
      PartitionStep(s, qm, i);
      qm := qm[q := qm[q] + [s[i]]];
    }
    PartitionEnd(s, qm);
  }

  /** The partition loop's invariant: the map holds quartiles 1..4 of the first `i` positions. */
  ghost predicate PartitionedUpTo<T>(s: seq<T>, qm: map<int, seq<T>>, i: nat)
    requires i <= |s|
  {
    (forall p :: p in qm <==> 1 <= p <= 4) &&
    qm[1] == QuartilePrefix(s, 1, i) && qm[2] == QuartilePrefix(s, 2, i) &&
    qm[3] == QuartilePrefix(s, 3, i) && qm[4] == QuartilePrefix(s, 4, i)
  }

  lemma PartitionStep<T>(s: seq<T>, qm: map<int, seq<T>>, i: nat)
    requires i < |s| && PartitionedUpTo(s, qm, i)
    ensures var q := QuartileOf(i, |s|);
      PartitionedUpTo(s, qm[q := qm[q] + [s[i]]], i + 1)
  {
    QuartilePrefixStep(s, 1, i);
    QuartilePrefixStep(s, 2, i);
    QuartilePrefixStep(s, 3, i);
    QuartilePrefixStep(s, 4, i);
  }

  lemma PartitionStart<T>(s: seq<T>)
    ensures PartitionedUpTo(s, map[1 := [], 2 := [], 3 := [], 4 := []], 0)
  {
    LoHiOrdered(1, |s|);
    LoHiOrdered(2, |s|);
    LoHiOrdered(3, |s|);
    LoHiOrdered(4, |s|);
  }

  lemma PartitionEnd<T>(s: seq<T>, qm: map<int, seq<T>>)
    requires PartitionedUpTo(s, qm, |s|)
    ensures forall q :: q in qm <==> 1 <= q <= 4
    ensures forall q :: 1 <= q <= 4 ==> qm[q] == Quartile(s, q)
  {
    forall q | 1 <= q <= 4 ensures qm[q] == Quartile(s, q) {
      LoHiOrdered(q, |s|);
    }
  }
}

=== FILE: wrappers.dfy ===
/** Failure-compatible result types shared by the whole model. */
module Wrappers {

  /** A value that may be absent (Python's `None`). */
  datatype Option<+T> = None | Some(value: T)

  /** The outcome of an operation that either returns a value or raises. */
  datatype Result<+T, +E> = Success(value: T) | Failure(error: E)
}
